=== FILE: README.md ===
# Site-record store of WebLauncher

WebLauncher keeps a list of bookmarked web sites ("records"). Each record is a
JSON object with an id, a name, a url, a category and sometimes a creation
time. The list lives in `~/.weblauncher/custom_sites.json`, one JSON object per
line. The same store is written twice:

- `WebsiteManager` in `main.py` is the store behind the Kivy app.
- `WebLauncherApp` in `guanwangzhida.py` is the same logic inside Tkinter
  callbacks.

This project models both. It covers:

- the URL pattern both variants accept;
- record validation and the skip-tolerant line-by-line load;
- the fallback to a built-in catalog;
- the save rule: back up to `.bak`, then rewrite;
- the one-time migration from legacy paths;
- add, delete, the category filter and the keyword search;
- the sorted category lists.

The files are a map from path to decoded lines (`Storage.FileSystem`). The
copy, read and write operations that can fail each take a parameter saying
how they end; creating the data directory is taken to succeed. The uuid token
and the clock are parameters as well.

Modules:

- `UrlShape` holds the URL pattern twice. One copy is a ghost predicate that
  reads like the regular expression. The other is an executable recogniser.
  A lemma proves the two agree. `UrlExamples` holds worked examples.
- `Text` covers strip, lower, substring and the string order `sorted` uses.
  `Seqs` covers subsequences and filtering with exceptions.
- `Json` and `Sites` hold the decoded values, the record and `validate_site`.
- `Storage` holds paths, save and migrate.
- `Loader` holds `load_websites`.
- `Defaults` holds the two catalogs.
- `Categories` holds the sorted category lists.
- `Queries` holds the list comprehensions.
- `WebsiteManager` is the Kivy store. `WebLauncherApp` is the Tk store.

Where the code does less than its comments and callers suggest, the model
follows the code:

- `add_website` in main.py accepts an empty name. Only its UI caller checks
  for one. See `WebsiteManager.AddAcceptsEmptyName`.
- guanwangzhida.py numbers ids by list length. This is modelled as written and
  logged under Findings.

## Model

| member | source | states |
|---|---|---|
| UrlShape.ValidUrlMatchesPattern | main.py:131-138 | The executable recogniser accepts a string exactly when it matches the regular expression: an optional http:// or https:// (any case), one or more labels of [A-Za-z0-9-] each ending in a dot, two or more letters, an optional port of digits, then path groups that start with "/" and use only [/\w.-]. |
| UrlShape.ValidUrlChars | main.py:131-138 | Every character of an accepted URL is a letter, digit, '_', '-', '.', '/' or ':'. |
| UrlShape.RejectsQueryFragmentSpace | main.py:131-138 | A URL containing '?', '#' or a space is rejected. |
| UrlShape.RejectsDotlessHost | main.py:131-138 | A URL whose host (the run of letters, digits, dots and hyphens after the scheme) has no dot is rejected, whatever path follows it. |
| UrlExamples.RejectsDotlessHostWithPath | main.py:131-138 | "https://lan/a.html" is rejected: the dot in the path does not make up for the dotless host. |
| UrlShape.RejectsSchemeInHost | main.py:131-138 | A string that starts with https:// followed by a run of letters and then a colon (a second scheme) is rejected. |
| UrlExamples.AcceptsGithub | guanwangzhida.py:319-326 | "https://github.com" is accepted. |
| UrlExamples.AcceptsMultiLabelHostWithPath | guanwangzhida.py:319-326 | A host with several labels followed by a path is accepted. |
| UrlExamples.AcceptsUpperCaseSchemeAndPort | guanwangzhida.py:319-326 | An upper-case scheme with a port is accepted, because the pattern ignores case. |
| UrlExamples.RejectsPlainWord | main.py:131-138 | A single word with no dot is rejected. |
| UrlExamples.RejectsBareScheme | main.py:131-138 | A scheme with no host is rejected. |
| UrlExamples.RejectsPrefixedFtp | main.py:131-138 | "https://ftp://x" is rejected. |
| Sites.ValidateSite | main.py:124-129 | Success(true) exactly for an object whose name and url are strings and whose url is accepted; the name may be empty. A number, boolean or null raises TypeError. A string raises exactly when it contains both "name" and "url". A list raises exactly when it holds both strings as elements. |
| Sites.WithScheme | main.py:142-143 | The result always starts with http:// or https://. A url that already does is kept. Any other url gets https:// in front. |
| Sites.WithSchemeIdempotent | guanwangzhida.py:339-340 | Normalising twice is the same as normalising once. |
| Sites.ForeignSchemeRejected | main.py:142-146 | A url that starts with some other scheme (for example "HTTP://" or "ftp://") gets a second scheme prepended and is then rejected. |
| Sites.EncodeAllInjective | main.py:196-198 | Different record lists are written as different line sequences. |
| Loader.LineTest | main.py:113-119 | A line is kept exactly when it decodes to an object that validate_site accepts. It raises exactly when validate_site raises on the decoded value. An undecodable line is skipped. |
| Loader.ReadSites | main.py:109-120 | When no line raises, the result holds, in file order, exactly the records of the lines that decode to a valid object, and every one is valid. Any raising line gives TypeError. |
| Loader.LoadExisting | main.py:109-122 | An unreadable file gives the catalog. So does a raising line, and so does a file with no valid record. Otherwise the result is the non-empty, order-preserving selection of valid records. |
| Loader.Load | main.py:98-122 | An existing file is read and the file system is unchanged. A missing file receives the catalog and the catalog is returned. If that write fails, the first `fallback` catalog records are returned and the data file is left as the failed write left it: missing after a failed open, or holding the lines written before the fault. No other path changes. |
| Loader.LoadWellTyped | guanwangzhida.py:281-310 | Whatever is loaded has a string name and url in every record, and is non-empty. |
| Loader.SaveLoadRoundTrip | main.py:188-198 | After a successful save, loading the data file gives back the same non-empty list of valid records. |
| Storage.WriteLines | main.py:195-197 | A completed write replaces the file with the lines. A failed open changes nothing. A write that stops early leaves only the lines written so far. |
| Storage.Join | main.py:35-36 | An absolute second part replaces the first. Otherwise the result starts with the first part and ends with the second. |
| Storage.GetEnvOr | main.py:50 | A set variable gives its value; an unset one gives the default. |
| Storage.Save | main.py:188-202 | Success exactly when the backup copy (if the data file exists) and the write both succeed. A successful save writes one line per record, in order. If the data file existed and the copy worked, its old content is in the .bak file; if it did not exist, an existing .bak is left as it was. A failing backup copy leaves the file system unchanged. A failed open leaves the data file as it was; a write that stops after k lines leaves the first k. No other path changes. |
| Storage.SaveTwice | guanwangzhida.py:489-501 | After two successful saves the data file holds the second list and the backup holds the first. |
| Storage.FirstCopyable | main.py:54-60 | The first legacy path, in order, that exists and can be copied: every earlier path is missing or fails to copy. None exactly when no path can be copied. |
| Storage.MigrateFirstWins | main.py:46-60 | An existing data file is never touched. Otherwise the first legacy file that exists and copies is copied to it, or nothing happens. |
| Storage.MigrateFrame | guanwangzhida.py:47-53 | Migration changes no path but the data file. |
| Categories.AllCategoriesOf | main.py:204-209 | Strictly increasing in code-point order, and its elements are exactly the record categories. A missing category raises KeyError; a non-string category raises TypeError. |
| Categories.SortedUnique | main.py:209 | Two strictly sorted lists with the same elements are equal. |
| Categories.NavCategories | guanwangzhida.py:92-146 | "我的", then "全部", then the other record categories, each once, in increasing order, with no duplicates. |
| Categories.AddMenuCategories | guanwangzhida.py:212-221 | The record categories plus "其他", with no duplicates. The list is strictly sorted when a record has "其他"; otherwise "其他" is appended at the end of the sorted list. |
| Defaults.MainDefaults | main.py:64-96 | The Kivy catalog: 31 records, each with a string id, name, url and category. |
| Defaults.TkDefaults | guanwangzhida.py:236-279 | The Tk catalog: 31 records, each with a string id, name, url and category. |
| Queries.CategoryView | guanwangzhida.py:374-377 | "全部" shows every record. Any other filter shows, in order, exactly the records of that category, or raises KeyError when a record has no category. |
| Queries.SearchMatches | main.py:184-186 | When every name and url is a string, the result is, in order, exactly the records whose lower-cased name or url contains the keyword. It is always a subsequence. |
| Queries.RemoveId | main.py:166 | Exactly the records without the id, in order. A record without an id raises KeyError. |
| Queries.RemoveIdShortens | main.py:164-170 | Removal shortens the list exactly when some record has the id. Otherwise the list is unchanged. |
| Queries.FirstNameWithId | guanwangzhida.py:420 | When no record has the id, the result is "". Otherwise it is the name of the first record with the id. A record without an id before the first match raises KeyError("id"), and a match without a name raises KeyError("name"); no other error is possible. |
| Queries.NoRecordHasFreshId | main.py:148-149 | If no existing id ends in the 32-digit hex token, no record has the id category_token. |
| WebsiteManager.Init | main.py:33-44 | The store opens on the data file with filter "全部", and its list is non-empty with string names and urls. When the data file exists after migration, the file system is left as migration left it and the list is what loading that file gives, falling back to the Kivy catalog. |
| WebsiteManager.Open | main.py:98-122 | An existing data file is read, the file system is unchanged, and the list is what loading it gives. A missing file receives the catalog and the store holds the catalog; if that write fails, the first five catalog records, with the data file as the failed write left it. |
| WebsiteManager.InitFirstRun | main.py:98-105 | With no data file and no legacy file, start-up writes the catalog to the data file and holds it. |
| WebsiteManager.SaveWebsites | main.py:188-202 | The records are unchanged. The file system and the returned flag are exactly those of the save rule (Storage.Save): on success the records are in the data file and the previous content in the backup. |
| WebsiteManager.AddWebsite | main.py:140-161 | Fails with ValueError exactly when the normalised url is rejected; nothing is saved then. Otherwise it appends one valid record carrying the given name, the normalised url, the category, the id category_token and the time, with exactly the keys id, name, url, category and created_at, and saves the new list by the save rule. When the token is 32 hex digits that no existing id ends in, the new record is the only one with its id. |
| WebsiteManager.AddWebsiteToMine | main.py:140 | Called without a category, add_website files the record under "我的", with id "我的_" followed by the token; otherwise it behaves as above. |
| WebsiteManager.AddAcceptsEmptyName | main.py:140-161 | An empty name is accepted. |
| WebsiteManager.DeleteWebsite | main.py:163-170 | Keeps, in order, exactly the records without the id. Returns true exactly when some record had it, and then the list is shorter and saved. On false the store is unchanged and nothing is saved. A record without an id raises KeyError. |
| WebsiteManager.AddThenDelete | main.py:140-170 | Deleting the id of a record just added with an unused token removes that record and nothing else. |
| WebsiteManager.FilterSites | main.py:172-177 | Always remembers the category. "全部" returns the whole list; any other category returns, in order, exactly the records of that category. |
| WebsiteManager.SearchWebsite | main.py:179-186 | An empty keyword gives the current filter's result. Any other keyword gives, in order, the records whose lower-cased name or url contains it, whatever the filter. The result is always a subsequence of the list. |
| WebsiteManager.SearchIgnoresCase | main.py:183-186 | A keyword and its lower-cased form give the same result. |
| WebsiteManager.GetAllCategories | main.py:204-209 | Succeeds exactly when every record has a string category. The result is then strictly increasing and holds exactly the categories of the records. Otherwise it raises KeyError("category") or TypeError. |
| WebLauncherApp.InitAsWritten | guanwangzhida.py:19-53 | Start-up raises TypeError when APPDATA is unset. When it is set, start-up is the corrected one followed by the record-reading part of create_widgets, and it fails exactly when that part does. A successful start-up holds the corrected one's state. |
| WebLauncherApp.Widgets | guanwangzhida.py:55-178 | The window is built exactly when every record has a string category and an id; the state is then unchanged and both category lists exist. A record without a string category raises KeyError("category") or TypeError. If every category is a string, the only possible error is KeyError("id"). |
| WebLauncherApp.StartWithoutAppDataFails | guanwangzhida.py:40 | On a machine without APPDATA, start-up raises TypeError. |
| WebLauncherApp.Init | guanwangzhida.py:19-29 | Start-up with APPDATA defaulting to "" opens the data file with filter "全部" and a non-empty, well-typed list. When the data file exists after migration, the file system is left as migration left it and the list is what loading that file gives, falling back to the Tk catalog. |
| WebLauncherApp.Open | guanwangzhida.py:281-310 | An existing data file is read, the file system is unchanged, and the list is what loading it gives. A missing file receives the catalog and the window holds it. If that write fails, only the first catalog record is kept, and the data file is as the failed write left it. |
| WebLauncherApp.SaveWebsites | guanwangzhida.py:489-501 | The records stay as they are. The file system becomes exactly what the save rule (Storage.Save) makes of it. That includes the .bak copy of an existing data file, and the records written to the data file on success. |
| WebLauncherApp.SaveThenReload | guanwangzhida.py:489-501 | After a successful save of a non-empty list of valid records, the next start-up loads the same list. |
| WebLauncherApp.AddWithId | guanwangzhida.py:328-358 | Both fields are stripped. An empty one gives the empty-field error. A rejected url gives the invalid-url error. Each error leaves the window's data unchanged. Otherwise exactly one valid record is appended and the list saved. The record carries the stripped, non-empty name, the normalised url, the category and the id. |
| WebLauncherApp.AddWebsite | guanwangzhida.py:347 | The add succeeds exactly when both stripped fields are non-empty and the normalised url is accepted. The new id is the category, "_" and the list length plus one. |
| WebLauncherApp.CounterIdRepeats | guanwangzhida.py:347 | Start from records x and y, where y's id is c_2. Deleting x and then adding in c gives a second record with id c_2. |
| WebLauncherApp.CounterIdRepeatsExample | guanwangzhida.py:347 | A concrete instance: records "news_1" and "tool_2", delete "news_1", add a tool; two records now have id "tool_2". |
| WebLauncherApp.AddWebsiteFresh | guanwangzhida.py:328-358 | The same add with a category_token id. It succeeds exactly when both stripped fields are non-empty and the normalised url is accepted, and otherwise changes nothing. On success the new record carries that id and is appended. When the token is 32 hex digits that no existing id ends in, the new record is the only one with its id, whatever was deleted before. |
| WebLauncherApp.DeleteSite | guanwangzhida.py:418-430 | Either nothing changes, or the result is the removal of every record with the id. Errors are only KeyError on "id" or "name". A record without an id before the first match raises KeyError("id"); a first match without a name raises KeyError("name"). |
| WebLauncherApp.DeleteSiteNoMatch | guanwangzhida.py:420-422 | When no record has the id, nothing changes. |
| WebLauncherApp.DeleteSiteFirstMatch | guanwangzhida.py:420-427 | The first record with the id decides. A falsy name (such as "") changes nothing; any other name removes every record with the id. |
| WebLauncherApp.DropId | guanwangzhida.py:427-428 | Keeps, in order, exactly the records without the id, then saves. The list gets shorter when some record had the id. A record without an id raises KeyError. |
| WebLauncherApp.FilterSites | guanwangzhida.py:432-435 | The filter becomes the category and nothing else changes; the view then shows that category's records. |
| WebLauncherApp.SearchWebsite | guanwangzhida.py:437-445 | The keyword is stripped and lower-cased. An empty keyword shows the current view. Any other keyword shows, in order, the records whose lower-cased name or url contains it, whatever the filter. |
| WebLauncherApp.SearchIgnoresSurroundingSpace | guanwangzhida.py:439 | White space around the keyword does not change the result. |

## Left out

- Widget construction and layout, scrolling, popups, the status bar and key bindings are not modelled. They are UI plumbing. The delete confirmation dialog is taken as always answered yes.
- The Kivy app class that calls `WebsiteManager` is not modelled. That includes its empty-field check before add.
- `os.makedirs` of the data directory is taken to succeed. An exception there would end start-up before migration; the model has no parameter for it.
- Real file I/O is replaced by a map from path to lines. That covers `open`, `shutil.copy2`, `os.path.exists` and `expanduser`. Each failure is a parameter: which copies fail, whether the read fails, and how a write ends. A copy that fails midway is taken to change nothing.
- JSON text is not modelled. A line is what `json.loads` makes of it: undecodable, or a decoded value. `json.dumps` then `json.loads` of a record is taken to give the record back. Numbers are abstract, and floating point is out of scope.
- The uuid4 token and the clock are parameters.
- Opening a site in the browser (`webbrowser.open`) is an external effect and is left out.
- Text handling is simplified:
  - `str.lower()`, `\w` and the pattern's case-insensitive matching cover ASCII letters only.
  - `\d` in the port covers ASCII digits only, where Python's also accepts other Unicode decimal digits.
  - `$` matches only at the end of the string, not before a trailing newline.
  - `strip()` uses Python's white-space set.
- `os.path.join` is the POSIX version. Windows drive letters and back-slashes are not modelled.
- Categories.AllCategoriesOf: any category that is not a string raises TypeError. In Python, some non-string categories (only numbers, say) sort without error.
- Defaults.MainDefaults, Defaults.TkDefaults: the contracts say every catalog record has string fields. They do not prove that every catalog url passes the pattern.
- WebLauncherApp.SaveWebsites: the error dialog after a failed save is not modelled. Only its effect on the file system is.
- WebsiteManager.SaveWebsites: the boolean main.py returns is the second component of the result. `AddWebsite` and `DeleteWebsite` ignore it, as the source does.

## Findings

| source | as written | input that shows it | evidently intended | confidence | as-written member | corrected member |
|---|---|---|---|---|---|---|
| guanwangzhida.py:40 | `os.getenv('APPDATA')` has no default, so it is None off Windows, and `os.path.join(None, …)` raises TypeError during start-up | any machine where APPDATA is unset, e.g. Linux with an empty home | APPDATA read as "" when unset, as main.py:50 does, so the Windows legacy path is just skipped | not executed | WebLauncherApp.InitAsWritten | WebLauncherApp.Init |
| guanwangzhida.py:347 | the new id is the category, "_" and `len(self.websites)+1`, so it depends only on the list length | records "news_1" and "tool_2"; delete "news_1"; add a site in "tool": the new record is also "tool_2" | an id no other record holds, as main.py:148-149 makes with a uuid token | not executed | WebLauncherApp.CounterIdRepeatsExample | WebLauncherApp.AddWebsiteFresh |

=== FILE: categories.dfy ===
/** The category lists: get_all_categories (a sorted list of the distinct
    categories), the Tkinter navigation bar and the Tkinter add menu. */
module Categories {
  import opened Wrappers
  import opened Text
  import opened Json
  import opened Sites
  import opened Seqs

  /** The filter value that stands for every category. */
  const AllCategories: string := "全部"
  /** The default category of a record added through the Kivy store, and the
      first button of the Tkinter navigation bar. */
  const MyCategory: string := "我的"
  /** The default choice of the Tkinter add menu. */
  const OtherCategory: string := "其他"

  /** Strictly increasing in Python's string order. */
  predicate StrictlySorted(s: seq<string>) {
    forall i, j :: 0 <= i < j < |s| ==> Below(s[i], s[j])
  }

  /** The record's category is the string c. */
  predicate HasCategory(s: Site, c: string) {
    "category" in s.fields && s.fields["category"] == Str(c)
  }

  /** Some record has category c. */
  ghost predicate CategoryIn(ws: seq<Site>, c: string) {
    exists i :: 0 <= i < |ws| && HasCategory(ws[i], c)
  }

  lemma BelowAllOfSorted(s: seq<string>, x: string)
    requires StrictlySorted(s) && s != [] && Below(x, s[0])
    ensures forall j :: 0 <= j < |s| ==> Below(x, s[j])
  {
    forall j | 0 < j < |s|
      ensures Below(x, s[j])
    {
      BelowTransitive(x, s[0], s[j]);
    }
  }

  /** x put into its place in a strictly sorted list, unless already there. */
  function Insert(s: seq<string>, x: string): (r: seq<string>)
    requires StrictlySorted(s)
    ensures StrictlySorted(r)
    ensures forall y :: y in r <==> y in s || y == x
    decreases |s|
  {
    if s == [] then [x]
    else if s[0] == x then s
    else if Below(x, s[0]) then
      BelowAllOfSorted(s, x);
      [x] + s
    else
      BelowTotal(x, s[0]);
      var rest := Insert(s[1..], x);
      assert forall j :: 0 <= j < |rest| ==> Below(s[0], rest[j]) by {
        forall j | 0 <= j < |rest|
          ensures Below(s[0], rest[j])
        {
          if rest[j] != x {
            assert rest[j] in rest;
            var k :| 0 <= k < |s[1..]| && s[1..][k] == rest[j];
            assert s[k + 1] == rest[j];
          }
        }
      }
      [s[0]] + rest
  }

  /** `sorted(set(xs))` on strings. */
  function SortedDistinct(xs: seq<string>): (r: seq<string>)
    ensures StrictlySorted(r)
    ensures forall y :: y in r <==> y in xs
  {
    if xs == [] then []
    else Insert(SortedDistinct(xs[..|xs| - 1]), xs[|xs| - 1])
  }

  /** A strictly sorted list is determined by its elements, so the result
      of SortedDistinct is the only possible value of `sorted(set(xs))`. */
  lemma {:induction false} SortedUnique(a: seq<string>, b: seq<string>)
    requires StrictlySorted(a) && StrictlySorted(b)
    requires forall y :: y in a <==> y in b
    ensures a == b
    decreases |a|
  {
    NoMembersEmpty(a);
    NoMembersEmpty(b);
    if a != [] && b != [] {
      HeadIsLeast(a, b[0]);
      HeadIsLeast(b, a[0]);
      NotBothBelow(a[0], b[0]);
      forall y
        ensures y in a[1..] <==> y in b[1..]
      {
        SortedMemberTail(a, y);
        SortedMemberTail(b, y);
      }
      SortedUnique(a[1..], b[1..]);
      assert a == [a[0]] + a[1..] && b == [b[0]] + b[1..];
    }
  }

  lemma NoMembersEmpty(s: seq<string>)
    ensures (forall y :: y !in s) ==> s == []
  {
    if s != [] {
      assert s[0] in s;
    }
  }

  /** The head of a strictly sorted list is its least element. */
  lemma HeadIsLeast(a: seq<string>, y: string)
    requires StrictlySorted(a) && y in a
    ensures y == a[0] || Below(a[0], y)
  {
    var k :| 0 <= k < |a| && a[k] == y;
    if k > 0 {
      assert Below(a[0], a[k]);
    }
  }

  lemma NotBothBelow(x: string, y: string)
    ensures !(Below(x, y) && Below(y, x))
  {
    if Below(x, y) {
      BelowAsymmetric(x, y);
    }
  }

  /** In a strictly sorted list the head occurs nowhere else. */
  lemma SortedMemberTail(a: seq<string>, y: string)
    requires StrictlySorted(a) && a != []
    ensures y in a[1..] <==> y in a && y != a[0]
  {
    if y in a[1..] {
      var k :| 0 <= k < |a[1..]| && a[1..][k] == y;
      assert Below(a[0], a[k + 1]);
      BelowIrreflexive(a[0]);
    }
    if y in a && y != a[0] {
      var k :| 0 <= k < |a| && a[k] == y;
      assert a[1..][k - 1] == y;
    }
  }

  /** `site["category"]`, required to be a string. */
  function CategoryOf(s: Site): (r: Result<string, Error>)
    ensures r.Success? <==> "category" in s.fields && s.fields["category"].Str?
    ensures r.Success? ==> HasCategory(s, r.value)
    ensures r.Failure? ==> r.error == if "category" in s.fields then TypeError else KeyError("category")
  {
    match Field(s, "category")
    case Failure(e) => Failure(e)
    case Success(v) => if v.Str? then Success(v.str) else Failure(TypeError)
  }

  /** The categories of the records in order, or the first failure. */
  function CategoryList(ws: seq<Site>): (r: Result<seq<string>, Error>)
    ensures r.Success? <==> forall i :: 0 <= i < |ws| ==> CategoryOf(ws[i]).Success?
    ensures r.Success? ==> |r.value| == |ws|
    ensures r.Success? ==> forall i :: 0 <= i < |ws| ==> HasCategory(ws[i], r.value[i])
    ensures r.Failure? ==> exists i :: 0 <= i < |ws| && CategoryOf(ws[i]) == Failure(r.error)
  {
    if ws == [] then Success([])
    else match CategoryOf(ws[0])
      case Failure(e) => Failure(e)
      case Success(c) =>
        match CategoryList(ws[1..])
        case Failure(e) => Failure(e)
        case Success(cs) => Success([c] + cs)
  }

  /** get_all_categories: every distinct category once, in increasing order.
      A record without a category raises KeyError; a category that is not a
      string raises TypeError. */
  function AllCategoriesOf(ws: seq<Site>): (r: Result<seq<string>, Error>)
    ensures r.Success? <==> forall i :: 0 <= i < |ws| ==> CategoryOf(ws[i]).Success?
    ensures r.Success? ==> StrictlySorted(r.value)
    ensures r.Success? ==> forall c :: c in r.value <==> CategoryIn(ws, c)
    ensures r.Failure? ==> r.error == TypeError || r.error == KeyError("category")
  {
    match CategoryList(ws)
    case Failure(e) => Failure(e)
    case Success(cs) =>
      var r := SortedDistinct(cs);
      assert forall c :: c in r ==> CategoryIn(ws, c) by {
        forall c | c in r
          ensures CategoryIn(ws, c)
        {
          var i :| 0 <= i < |cs| && cs[i] == c;
          assert HasCategory(ws[i], c);
        }
      }
      assert forall c :: CategoryIn(ws, c) ==> c in r by {
        forall c | CategoryIn(ws, c)
          ensures c in r
        {
          var i :| 0 <= i < |ws| && HasCategory(ws[i], c);
          assert HasCategory(ws[i], cs[i]);
          assert cs[i] in cs;
        }
      }
      Success(r)
  }

  /** Dropping elements from a strictly sorted list keeps it sorted. */
  lemma {:induction false} SubsequenceSorted(r: seq<string>, s: seq<string>)
    requires IsSubsequence(r, s) && StrictlySorted(s)
    ensures StrictlySorted(r)
    decreases |s|
  {
    if s != [] {
      if r != [] && r[0] == s[0] && IsSubsequence(r[1..], s[1..]) {
        SubsequenceSorted(r[1..], s[1..]);
        SubsequenceSet(r[1..], s[1..]);
        forall j | 0 < j < |r|
          ensures Below(r[0], r[j])
        {
          assert r[1..][j - 1] in r[1..];
          var k :| 0 <= k < |s[1..]| && s[1..][k] == r[j];
          assert Below(s[0], s[k + 1]);
        }
      } else {
        SubsequenceSorted(r, s[1..]);
      }
    }
  }

  lemma SortedNoDuplicates(s: seq<string>)
    requires StrictlySorted(s)
    ensures NoDuplicates(s)
  {
    forall i, j | 0 <= i < j < |s|
      ensures s[i] != s[j]
    {
      BelowIrreflexive(s[i]);
    }
  }

  /** Neither "我的" nor "全部": the categories the navigation bar lists
      after its two fixed buttons. */
  predicate Unreserved(c: string) {
    c != MyCategory && c != AllCategories
  }

  /** The Tkinter navigation bar: "我的", then "全部", then every other
      category once, in increasing order. */
  function NavCategories(ws: seq<Site>): (r: Result<seq<string>, Error>)
    ensures r.Success? <==> AllCategoriesOf(ws).Success?
    ensures r.Success? ==> |r.value| >= 2 && r.value[0] == MyCategory && r.value[1] == AllCategories
    ensures r.Success? ==> StrictlySorted(r.value[2..])
    ensures r.Success? ==> forall c :: c in r.value[2..] <==> CategoryIn(ws, c) && Unreserved(c)
    ensures r.Success? ==> NoDuplicates(r.value)
  {
    match AllCategoriesOf(ws)
    case Failure(e) => Failure(e)
    case Success(sorted) =>
      var rest := Filter(sorted, Unreserved);
      SelectsMembers(rest, sorted, Unreserved);
      SubsequenceSorted(rest, sorted);
      SortedNoDuplicates(rest);
      var r := [MyCategory, AllCategories] + rest;
      assert r[2..] == rest;
      assert NoDuplicates(r) by {
        forall i, j | 0 <= i < j < |r|
          ensures r[i] != r[j]
        {
          if j >= 2 {
            assert r[j] == rest[j - 2] && rest[j - 2] in rest;
          }
        }
      }
      Success(r)
  }

  /** The Tkinter add menu: the categories in increasing order, with "其他"
      appended when no record has it. */
  function AddMenuCategories(ws: seq<Site>): (r: Result<seq<string>, Error>)
    ensures r.Success? <==> AllCategoriesOf(ws).Success?
    ensures r.Success? ==> OtherCategory in r.value
    ensures r.Success? ==> forall c :: c in r.value <==> CategoryIn(ws, c) || c == OtherCategory
    ensures r.Success? ==> NoDuplicates(r.value)
    ensures r.Success? && CategoryIn(ws, OtherCategory) ==> StrictlySorted(r.value)
    ensures r.Success? && !CategoryIn(ws, OtherCategory) ==>
              StrictlySorted(r.value[..|r.value| - 1]) && r.value[|r.value| - 1] == OtherCategory
  {
    match AllCategoriesOf(ws)
    case Failure(e) => Failure(e)
    case Success(sorted) =>
      SortedNoDuplicates(sorted);
      if OtherCategory in sorted then Success(sorted)
      else
        var r := sorted + [OtherCategory];
        assert r[..|r| - 1] == sorted;
        Success(r)
  }
}

=== FILE: defaults.dfy ===
/** The two built-in catalogs a store falls back to when its data file is
    missing, unreadable or yields no record. */
module Defaults {
  import opened Json
  import opened Sites

  /** A catalog record: id, name, url and category, all strings. */
  predicate IsEntry(s: Site) {
    && WellTyped(s)
    && "id" in s.fields && s.fields["id"].Str?
    && "category" in s.fields && s.fields["category"].Str?
  }

  /** The records of a catalog, one per (id, name, url, category) row, in order. */
  function Catalog(rows: seq<(string, string, string, string)>): (r: seq<Site>)
    ensures |r| == |rows|
    ensures forall i :: 0 <= i < |rows| ==> r[i] == Entry(rows[i].0, rows[i].1, rows[i].2, rows[i].3)
    ensures forall i :: 0 <= i < |r| ==> IsEntry(r[i])
  {
    seq(|rows|, i requires 0 <= i < |rows| => Entry(rows[i].0, rows[i].1, rows[i].2, rows[i].3))
  }

  /** The catalog of the Kivy store (main.py:64-96). */
  function MainDefaults(): (r: seq<Site>)
    ensures |r| == 31
    ensures forall i :: 0 <= i < |r| ==> IsEntry(r[i])
  {
    Catalog([
      ("social_1", "微博", "https://weibo.com", "社交"),
      ("social_2", "微信", "https://wx.qq.com", "社交"),
      ("social_3", "QQ", "https://im.qq.com", "社交"),
      ("social_4", "知乎", "https://www.zhihu.com", "社交"),
      ("social_5", "豆瓣", "https://www.douban.com", "社交"),
      ("tech_1", "GitHub", "https://github.com", "技术"),
      ("tech_2", "百度网盘", "https://pan.baidu.com", "工具"),
      ("tech_3", "阿里云", "https://www.aliyun.com", "工具"),
      ("tech_4", "CSDN", "https://www.csdn.net", "技术"),
      ("tech_5", "Stack Overflow", "https://stackoverflow.com", "技术"),
      ("shopping_1", "淘宝", "https://www.taobao.com", "购物"),
      ("shopping_2", "京东", "https://www.jd.com", "购物"),
      ("shopping_3", "拼多多", "https://www.pinduoduo.com", "购物"),
      ("shopping_4", "唯品会", "https://www.vip.com", "购物"),
      ("shopping_5", "网易严选", "https://you.163.com", "购物"),
      ("news_1", "腾讯新闻", "https://news.qq.com", "新闻"),
      ("news_2", "人民日报", "https://www.people.com.cn", "新闻"),
      ("news_3", "36氪", "https://www.36kr.com", "新闻"),
      ("news_4", "虎嗅", "https://www.huxiu.com", "新闻"),
      ("video_1", "哔哩哔哩", "https://www.bilibili.com", "视频"),
      ("video_2", "腾讯视频", "https://v.qq.com", "视频"),
      ("video_3", "爱奇艺", "https://www.iqiyi.com", "视频"),
      ("video_4", "优酷", "https://www.youku.com", "视频"),
      ("video_5", "芒果TV", "https://www.mgtv.com", "视频"),
      ("education_1", "知乎日报", "https://daily.zhihu.com", "新闻"),
      ("education_2", "中国大学MOOC", "https://www.icourse163.org", "教育"),
      ("education_3", "W3School", "https://www.w3school.com.cn", "技术"),
      ("education_4", "LeetCode", "https://leetcode.cn", "技术"),
      ("live_1", "斗鱼直播", "https://www.douyu.com", "直播"),
      ("live_2", "虎牙直播", "https://www.huya.com", "直播"),
      ("ai_1", "deepseek", "https://www.deepseek.com/zh", "工具")
    ])
  }

  /** The catalog of the Tkinter store (guanwangzhida.py:236-279). */
  function TkDefaults(): (r: seq<Site>)
    ensures |r| == 31
    ensures forall i :: 0 <= i < |r| ==> IsEntry(r[i])
  {
    Catalog([
      ("social_1", "微博", "https://weibo.com", "社交"),
      ("social_2", "微信", "https://wx.qq.com", "社交"),
      ("social_3", "QQ", "https://im.qq.com", "社交"),
      ("social_4", "知乎", "https://www.zhihu.com", "社交"),
      ("social_5", "豆瓣", "https://www.douban.com", "社交"),
      ("tools_1", "GitHub", "https://github.com", "工具"),
      ("tools_2", "百度网盘", "https://pan.baidu.com", "工具"),
      ("tools_3", "阿里云", "https://www.aliyun.com", "工具"),
      ("tools_4", "CSDN", "https://www.csdn.net", "工具"),
      ("tools_5", "Stack Overflow", "https://stackoverflow.com", "工具"),
      ("shopping_1", "淘宝", "https://www.taobao.com", "购物"),
      ("shopping_2", "京东", "https://www.jd.com", "购物"),
      ("shopping_3", "拼多多", "https://www.pinduoduo.com", "购物"),
      ("shopping_4", "唯品会", "https://www.vip.com", "购物"),
      ("shopping_5", "网易严选", "https://you.163.com", "购物"),
      ("news_1", "新浪新闻", "https://news.sina.com.cn", "新闻"),
      ("news_2", "腾讯新闻", "https://news.qq.com", "新闻"),
      ("news_3", "人民日报", "https://www.people.com.cn", "新闻"),
      ("news_4", "36氪氪", "https://36kr.com", "新闻"),
      ("news_5", "虎嗅", "https://www.huxiu.com", "新闻"),
      ("video_1", "哔哔哩哔哔哩", "https://www.bilibili.com", "视频"),
      ("video_2", "腾讯视频", "https://v.qq.com", "视频"),
      ("video_3", "爱奇艺", "https://www.iqiyi.com", "视频"),
      ("video_4", "优酷", "https://www.youku.com", "视频"),
      ("video_5", "芒果TV", "https://www.mgtv.com", "视频"),
      ("other_1", "知乎日报", "https://daily.zhihu.com", "其他"),
      ("other_2", "中国大学MOOC", "https://www.icourse163.org", "其他"),
      ("other_3", "W3School", "https://www.w3school.com.cn", "其他"),
      ("other_4", "LeetCode", "https://leetcode.cn", "其他"),
      ("other_5", "斗鱼直播", "https://www.douyu.com", "其他"),
      ("other_6", "虎牙直播", "https://www.huya.com", "其他")
    ])
  }
}

=== FILE: json.dfy ===
/** The values json.loads produces, and one line of a data file as the
    loader sees it. JSON text itself is not modelled: a line is what
    decoding made of it. */
module Json {

  /** A decoded JSON value. Every JSON number is a Num; the model never
      needs more than "a number that is neither a string nor a container". */
  datatype Value =
    | Null
    | Bool(b: bool)
    | Num(n: int)
    | Str(str: string)
    | Arr(items: seq<Value>)
    | Obj(fields: map<string, Value>)

  /** One line of a data file: json.loads either raises JSONDecodeError on
      it or yields a value. */
  datatype Line = Undecodable | Encoded(value: Value)

  /** Python's truth value of a decoded value (`if not v`). */
  predicate Truthy(v: Value) {
    match v
    case Null => false
    case Bool(b) => b
    case Num(n) => n != 0
    case Str(s) => s != []
    case Arr(xs) => xs != []
    case Obj(f) => f != map[]
  }
}

=== FILE: launcher.dfy ===
/** WebLauncherApp, the same site-record store inside the Tk window: its
    start-up, its add, delete, filter and search callbacks, and the category
    lists of the navigation bar and the add form. Widgets are left out; the
    entry fields' text, the clock and the outcome of every file operation
    are parameters, and the delete confirmation is always answered yes. */
module WebLauncherApp {
  import opened Wrappers
  import opened Text
  import opened Json
  import opened UrlShape
  import opened Sites
  import opened Seqs
  import opened Storage
  import opened Loader
  import opened Defaults
  import opened Categories
  import opened Queries
  import UrlExamples

  /** The window's data: the file system, the data file, the records and the
      category whose buttons are shown. */
  datatype App = App(fs: FileSystem, dataFile: Path, websites: seq<Site>, currentFilter: string)

  /** Every record has a string name and url. */
  predicate Inv(a: App) {
    forall i :: 0 <= i < |a.websites| ==> WellTyped(a.websites[i])
  }

  // ---------------------------------------------------------------------
  // Start-up

  /** The legacy paths as __init__ computes them: os.getenv('APPDATA') has no
      default here, so it is None when the variable is unset, and joining
      None raises TypeError. */
  function LegacyPathsAsWritten(home: string, appData: Option<string>): Result<seq<Path>, Error> {
    if appData.None? then Failure(TypeError)
    else Success(LegacyPaths(home, appData.value))
  }

  /** __init__ as written: without APPDATA (any system but Windows) the
      window never opens; with it, start-up is the corrected one followed by
      the category lists and buttons of create_widgets. */
  function InitAsWritten(fs: FileSystem, env: Env): (r: Result<App, Error>)
    ensures r.Failure? <==> env.appData.None? || Widgets(Init(fs, env)).Failure?
    ensures env.appData.None? ==> r == Failure(TypeError)
    ensures env.appData.Some? ==> r == Widgets(Init(fs, env))
    ensures r.Success? ==> r.value == Init(fs, env)
  {
    match LegacyPathsAsWritten(env.home, env.appData)
    case Failure(e) => Failure(e)
    case Success(legacy) => Widgets(Started(fs, env, legacy, TkDefaults()))
  }

  /** The part of create_widgets that reads the records: the navigation bar's
      category set, then the add form's, then populate_buttons under "全部",
      which reads every record's id for its context menu. A record without a
      string category fails the first step, one without an id the last. */
  function Widgets(a: App): (r: Result<App, Error>)
    ensures r.Success? <==> forall i :: 0 <= i < |a.websites| ==>
              CategoryOf(a.websites[i]).Success? && "id" in a.websites[i].fields
    ensures r.Success? ==> r.value == a && NavCategories(a.websites).Success? && AddMenuCategories(a.websites).Success?
    ensures (exists i :: 0 <= i < |a.websites| && CategoryOf(a.websites[i]).Failure?) ==>
              r.Failure? && (r.error == TypeError || r.error == KeyError("category"))
    ensures (forall i :: 0 <= i < |a.websites| ==> CategoryOf(a.websites[i]).Success?) && r.Failure? ==>
              r.error == KeyError("id")
  {
    match NavCategories(a.websites)
    case Failure(e) => Failure(e)
    case Success(_) =>
      match AddMenuCategories(a.websites)
      case Failure(e) => Failure(e)
      case Success(_) =>
        if forall i :: 0 <= i < |a.websites| ==> "id" in a.websites[i].fields then Success(a)
        else Failure(KeyError("id"))
  }

  /** Start-up on a Linux machine with an empty disk fails. */
  lemma StartWithoutAppDataFails()
    ensures InitAsWritten(map[], Env("/home/u", None, {}, false, NoFault)) == Failure(TypeError)
  {
  }

  /** __init__ with APPDATA read as "" when unset, as the Kivy store does:
      migrate, then load. */
  function Init(fs: FileSystem, env: Env): (a: App)
    ensures a.dataFile == DataFile(env.home) && a.currentFilter == AllCategories
    ensures Inv(a) && a.websites != []
    ensures var fs1 := Migrated(fs, env);
            DataFile(env.home) in fs1 ==>
              a.fs == fs1 && a.websites == LoadExisting(if env.readFails then None else Some(fs1[DataFile(env.home)]), TkDefaults())
  {
    Started(fs, env, LegacyPaths(env.home, GetEnvOr(env.appData, "")), TkDefaults())
  }

  /** Migration from the given legacy paths, then the load with the given
      catalog. */
  function Started(fs: FileSystem, env: Env, legacy: seq<Path>, defaults: seq<Site>): (a: App)
    requires defaults != [] && forall i :: 0 <= i < |defaults| ==> WellTyped(defaults[i])
    ensures a.dataFile == DataFile(env.home) && a.currentFilter == AllCategories
    ensures Inv(a) && a.websites != []
    ensures var fs1 := Migrate(fs, legacy, DataFile(env.home), env.copyFails);
            DataFile(env.home) in fs1 ==>
              a.fs == fs1 && a.websites == LoadExisting(if env.readFails then None else Some(fs1[DataFile(env.home)]), defaults)
  {
    var p := DataFile(env.home);
    Open(Migrate(fs, legacy, p, env.copyFails), p, env, defaults)
  }

  /** The load step of __init__ with the catalog to fall back on: a failed
      first write of it leaves its first record only. */
  function Open(fs: FileSystem, p: Path, env: Env, defaults: seq<Site>): (a: App)
    requires defaults != [] && forall i :: 0 <= i < |defaults| ==> WellTyped(defaults[i])
    ensures a.dataFile == p && a.currentFilter == AllCategories
    ensures Inv(a) && a.websites != []
    ensures p !in fs && !WriteLines(fs, p, EncodeAll(defaults), env.writeFault).1 ==>
              a.fs == WriteLines(fs, p, EncodeAll(defaults), env.writeFault).0 && a.websites == defaults[..1]
    ensures p in fs ==> a.fs == fs && a.websites == LoadExisting(if env.readFails then None else Some(fs[p]), defaults)
    ensures p !in fs && WriteLines(fs, p, EncodeAll(defaults), env.writeFault).1 ==>
              a.fs == fs[p := EncodeAll(defaults)] && a.websites == defaults
  {
    var r := Load(fs, p, env.readFails, env.writeFault, defaults, 1);
    LoadWellTyped(fs, p, env.readFails, env.writeFault, defaults, 1);
    App(r.0, p, r.1, AllCategories)
  }

  /** save_websites: back up, then rewrite. A failure is only reported to
      the user, so the records stay as they are either way. */
  function SaveWebsites(a: App, backupFails: bool, fault: WriteFault): (r: App)
    ensures r.websites == a.websites && r.dataFile == a.dataFile && r.currentFilter == a.currentFilter
    ensures Save(a.fs, a.dataFile, a.websites, backupFails, fault).1 ==>
              a.dataFile in r.fs && r.fs[a.dataFile] == EncodeAll(a.websites)
    ensures a.dataFile in a.fs && !backupFails ==>
              BackupPath(a.dataFile) in r.fs && r.fs[BackupPath(a.dataFile)] == a.fs[a.dataFile]
    ensures r.fs == Save(a.fs, a.dataFile, a.websites, backupFails, fault).0
  {
    a.(fs := Save(a.fs, a.dataFile, a.websites, backupFails, fault).0)
  }

  /** What save_websites writes, the next start-up reads back. */
  lemma SaveThenReload(a: App, backupFails: bool, fault: WriteFault, env: Env, defaults: seq<Site>)
    requires Save(a.fs, a.dataFile, a.websites, backupFails, fault).1
    requires a.websites != [] && forall i :: 0 <= i < |a.websites| ==> Valid(a.websites[i])
    requires !env.readFails
    requires defaults != [] && forall i :: 0 <= i < |defaults| ==> WellTyped(defaults[i])
    ensures Open(SaveWebsites(a, backupFails, fault).fs, a.dataFile, env, defaults).websites == a.websites
  {
    SaveLoadRoundTrip(a.fs, a.dataFile, a.websites, backupFails, fault, defaults);
  }

  // ---------------------------------------------------------------------
  // Adding

  /** How the add button ends: a record added, or one of the two error
      dialogs with nothing changed. */
  datatype AddOutcome = Added(site: Site) | EmptyField | InvalidUrl

  /** The id add_website makes: the category, "_", and the list length plus
      one in decimal. */
  function CounterId(category: string, n: nat): string {
    category + "_" + DecimalString(n + 1)
  }

  /** The data part of add_website with the id chosen by the caller: strip
      both fields, refuse an empty one, put https:// before a url without a
      lower-case scheme, refuse a url the pattern rejects, else append the
      record and save. */
  function AddWithId(a: App, nameIn: string, urlIn: string, category: string, id: string, createdAt: string,
                     backupFails: bool, fault: WriteFault): (r: (App, AddOutcome))
    ensures r.1.Added? <==> Accepted(nameIn, urlIn)
    ensures r.1 == EmptyField <==> Strip(nameIn) == [] || Strip(urlIn) == []
    ensures r.1 == InvalidUrl <==> Strip(nameIn) != [] && Strip(urlIn) != [] && !IsValidUrl(WithScheme(Strip(urlIn)))
    ensures !r.1.Added? ==> r.0 == a
    ensures r.1.Added? ==> r.0.websites == a.websites + [r.1.site]
    ensures r.1.Added? ==> r.0 == SaveWebsites(a.(websites := r.0.websites), backupFails, fault)
    ensures r.1.Added? ==> var s := r.1.site;
              Valid(s) && Name(s) == Strip(nameIn) && Name(s) != [] && Url(s) == WithScheme(Strip(urlIn))
              && HasCategory(s, category) && HasId(s, id)
    ensures Inv(a) ==> Inv(r.0)
  {
    var name := Strip(nameIn);
    var url := Strip(urlIn);
    if name == [] || url == [] then (a, EmptyField)
    else
      var u := WithScheme(url);
      if !IsValidUrl(u) then (a, InvalidUrl)
      else
        var site := NewSite(id, name, u, category, createdAt);
        (Append(a, site, backupFails, fault), Added(site))
  }

  /** Append a record and save the list. */
  function Append(a: App, site: Site, backupFails: bool, fault: WriteFault): (r: App)
    ensures r.websites == a.websites + [site]
    ensures r == SaveWebsites(a.(websites := r.websites), backupFails, fault)
    ensures Inv(a) && WellTyped(site) ==> Inv(r)
  {
    SaveWebsites(a.(websites := a.websites + [site]), backupFails, fault)
  }

  /** Both fields are non-empty once stripped, and the url, with a scheme
      put in front if needed, has the accepted shape. */
  predicate Accepted(nameIn: string, urlIn: string) {
    Strip(nameIn) != [] && Strip(urlIn) != [] && IsValidUrl(WithScheme(Strip(urlIn)))
  }

  /** add_website as written: the id is numbered by the list length. */
  function AddWebsite(a: App, nameIn: string, urlIn: string, category: string, createdAt: string,
                      backupFails: bool, fault: WriteFault): (r: (App, AddOutcome))
    ensures r.1.Added? <==> Accepted(nameIn, urlIn)
    ensures r.1.Added? ==> HasId(r.1.site, CounterId(category, |a.websites|))
    ensures r.1.Added? ==> r.0.websites == a.websites + [r.1.site]
  {
    AddWithId(a, nameIn, urlIn, category, CounterId(category, |a.websites|), createdAt, backupFails, fault)
  }

  /** A delete followed by an add in the same category hands out an id a
      kept record already has: y got "c_2" when it was added after x; once x
      is deleted the list has one record again, and the next add in c is
      numbered 2 as well. */
  lemma CounterIdRepeats(fs: FileSystem, p: Path, filter: string, x: Site, y: Site, c: string,
                         nameIn: string, urlIn: string, createdAt: string)
    requires "id" in x.fields && x.fields["id"].Str? && "name" in x.fields && Truthy(x.fields["name"])
    requires HasId(y, c + "_2") && !HasId(y, x.fields["id"].str)
    requires Accepted(nameIn, urlIn)
    ensures var d := DeleteSite(App(fs, p, [x, y], filter), x.fields["id"].str, false, NoFault);
            d.Success? && d.value.websites == [y]
            && var r := AddWebsite(d.value, nameIn, urlIn, c, createdAt, false, NoFault);
            r.1.Added? && r.0.websites == [y, r.1.site] && HasId(r.1.site, c + "_2")
  {
    var a := App(fs, p, [x, y], filter);
    DeleteFirstOfTwo(a, x, y);
    AddToOne(DeleteSite(a, x.fields["id"].str, false, NoFault).value, y, c, nameIn, urlIn, createdAt);
  }

  /** An add to a one-record list is numbered 2. */
  lemma AddToOne(d: App, y: Site, c: string, nameIn: string, urlIn: string, createdAt: string)
    requires d.websites == [y]
    requires Accepted(nameIn, urlIn)
    ensures var r := AddWebsite(d, nameIn, urlIn, c, createdAt, false, NoFault);
            r.1.Added? && r.0.websites == [y, r.1.site] && HasId(r.1.site, c + "_2")
  {
    var r := AddWebsite(d, nameIn, urlIn, c, createdAt, false, NoFault);
    assert r.1.Added?;
    assert |d.websites| == 1;
    SecondId(c);
    assert r.0.websites == [y] + [r.1.site];
  }

  /** The second id of a category is numbered 2. */
  lemma SecondId(c: string)
    ensures CounterId(c, 1) == c + "_2"
  {
    assert DecimalString(2) == "2";
  }

  /** Deleting the first of two records by an id only it has leaves the
      second. */
  lemma DeleteFirstOfTwo(a: App, x: Site, y: Site)
    requires a.websites == [x, y]
    requires "id" in x.fields && x.fields["id"].Str? && "name" in x.fields && Truthy(x.fields["name"])
    requires "id" in y.fields && !HasId(y, x.fields["id"].str)
    ensures var d := DeleteSite(a, x.fields["id"].str, false, NoFault);
            d.Success? && d.value.websites == [y]
  {
    var id := x.fields["id"].str;
    var ws := [x, y];
    assert FirstMatch(ws, 0, id);
    var keep := s => !HasId(s, id);
    assert Selects([y], ws, keep) by {
      assert IsSubsequence([y], ws) by {
        assert IsSubsequence([y][1..], ws[2..]);
        assert IsSubsequence([y], ws[1..]);
      }
      assert multiset(ws) == multiset{x} + multiset{y};
      assert x != y;
    }
    SelectsUnique(RemoveId(ws, id).value, [y], ws, keep);
  }

  /** A concrete instance of the collision: two records, the second numbered
      "tool_2"; deleting the first and adding another tool gives a second
      "tool_2". */
  lemma CounterIdRepeatsExample()
    ensures var x := Entry("news_1", "n", "https://github.com", "news");
            var y := Entry("tool_2", "t", "https://github.com", "tool");
            var d := DeleteSite(App(map[], "d", [x, y], AllCategories), "news_1", false, NoFault);
            d.Success? && d.value.websites == [y]
            && var r := AddWebsite(d.value, "g", "https://github.com", "tool", "t0", false, NoFault);
            r.1.Added? && r.0.websites == [y, r.1.site] && HasId(r.1.site, "tool_2")
  {
    var x := Entry("news_1", "n", "https://github.com", "news");
    var y := Entry("tool_2", "t", "https://github.com", "tool");
    ExampleAccepted();
    ExampleIds(x, y);
    CounterIdRepeats(map[], "d", AllCategories, x, y, "tool", "g", "https://github.com", "t0");
  }

  lemma ExampleAccepted()
    ensures Accepted("g", "https://github.com")
  {
    StripNoSpace("g");
    StripNoSpace("https://github.com");
    assert WithScheme("https://github.com") == "https://github.com";
    UrlExamples.AcceptsGithub();
  }

  lemma ExampleIds(x: Site, y: Site)
    requires x == Entry("news_1", "n", "https://github.com", "news")
    requires y == Entry("tool_2", "t", "https://github.com", "tool")
    ensures "id" in x.fields && x.fields["id"] == Str("news_1") && "name" in x.fields && Truthy(x.fields["name"])
    ensures HasId(y, "tool" + "_2") && !HasId(y, "news_1")
  {
  }

  /** add_website with the Kivy store's id: the category, "_" and a fresh
      32-digit hex token. */
  function AddWebsiteFresh(a: App, nameIn: string, urlIn: string, category: string, token: string, createdAt: string,
                           backupFails: bool, fault: WriteFault): (r: (App, AddOutcome))
    ensures r.1.Added? <==> Accepted(nameIn, urlIn)
    ensures !r.1.Added? ==> r.0 == a
    ensures r.1.Added? ==> HasId(r.1.site, category + "_" + token)
    ensures r.1.Added? ==> r.0.websites == a.websites + [r.1.site]
    ensures r.1.Added? && IsHexToken(token) && TokenUnused(a.websites, token) ==>
              forall i :: 0 <= i < |r.0.websites| && HasId(r.0.websites[i], category + "_" + token) ==> i == |a.websites|
  {
    var r := AddWithId(a, nameIn, urlIn, category, category + "_" + token, createdAt, backupFails, fault);
    if r.1.Added? && IsHexToken(token) && TokenUnused(a.websites, token) then
      NoRecordHasFreshId(a.websites, category, token);
      OnlyLastHasId(a.websites, r.1.site, category + "_" + token);
      r
    else r
  }

  // ---------------------------------------------------------------------
  // Deleting

  /** delete_site: the name of the first record with the id, "" if none; a
      falsy name ends the callback; otherwise every record with the id is
      dropped and the list saved. A record without an id (before the first
      match) or a matching record without a name raises KeyError. */
  function DeleteSite(a: App, id: string, backupFails: bool, fault: WriteFault): (r: Result<App, Error>)
    ensures r.Success? ==> r.value == a || r == DropId(a, id, backupFails, fault)
    ensures r.Failure? ==> r.error == KeyError("id") || r.error == KeyError("name")
    ensures (exists i :: 0 <= i < |a.websites| && "id" !in a.websites[i].fields && IdsBefore(a.websites, i, id)) ==>
              r == Failure(KeyError("id"))
    ensures forall i :: 0 <= i < |a.websites| && HasId(a.websites[i], id) && IdsBefore(a.websites, i, id) && "name" !in a.websites[i].fields
              ==> r == Failure(KeyError("name"))
  {
    match FirstNameWithId(a.websites, id)
    case Failure(e) => Failure(e)
    case Success(name) =>
      if !Truthy(name) then Success(a)
      else DropId(a, id, backupFails, fault)
  }

  /** No record has the id: the name found is "", and nothing happens. */
  lemma DeleteSiteNoMatch(a: App, id: string, backupFails: bool, fault: WriteFault)
    requires IdsBefore(a.websites, |a.websites|, id)
    ensures DeleteSite(a, id, backupFails, fault) == Success(a)
  {
  }

  /** The first record with the id decides: an empty (falsy) name leaves
      everything as it is, any other name removes every record with the id. */
  lemma DeleteSiteFirstMatch(a: App, id: string, i: int, backupFails: bool, fault: WriteFault)
    requires FirstMatch(a.websites, i, id)
    ensures !Truthy(a.websites[i].fields["name"]) ==> DeleteSite(a, id, backupFails, fault) == Success(a)
    ensures Truthy(a.websites[i].fields["name"]) ==> DeleteSite(a, id, backupFails, fault) == DropId(a, id, backupFails, fault)
  {
  }

  /** Record i is the first with the id, and has a name. */
  predicate FirstMatch(ws: seq<Site>, i: int, id: string) {
    0 <= i < |ws| && HasId(ws[i], id) && IdsBefore(ws, i, id) && "name" in ws[i].fields
  }

  /** The removal half of delete_site: keep the records without the id, in
      order, and save. */
  function DropId(a: App, id: string, backupFails: bool, fault: WriteFault): (r: Result<App, Error>)
    ensures r.Success? <==> forall j :: 0 <= j < |a.websites| ==> "id" in a.websites[j].fields
    ensures r.Failure? ==> r.error == KeyError("id")
    ensures r.Success? ==> Selects(r.value.websites, a.websites, s => !HasId(s, id)) && IsSubsequence(r.value.websites, a.websites)
    ensures r.Success? ==> r.value == SaveWebsites(a.(websites := r.value.websites), backupFails, fault)
    ensures r.Success? && (exists i :: 0 <= i < |a.websites| && HasId(a.websites[i], id)) ==> |r.value.websites| < |a.websites|
    ensures r.Success? && Inv(a) ==> Inv(r.value)
  {
    match RemoveId(a.websites, id)
    case Failure(e) => Failure(e)
    case Success(ws) =>
      RemoveIdShortens(a.websites, id);
      Success(SaveWebsites(a.(websites := ws), backupFails, fault))
  }

  // ---------------------------------------------------------------------
  // Queries

  /** The list populate_buttons shows: every record under "全部", else the
      records of the current category. */
  function View(a: App): Result<seq<Site>, Error> {
    CategoryView(a.websites, a.currentFilter)
  }

  /** filter_sites: remember the category; the view then shows it. */
  function FilterSites(a: App, category: string): (r: App)
    ensures r.websites == a.websites && r.fs == a.fs && r.dataFile == a.dataFile
    ensures r.currentFilter == category
    ensures View(r) == CategoryView(a.websites, category)
  {
    a.(currentFilter := category)
  }

  /** search_website: the keyword is stripped and lower-cased; an empty one
      shows the current view, any other the records whose lower-cased name or
      url contains it, whatever the filter. */
  function SearchWebsite(a: App, keywordIn: string): (r: Result<seq<Site>, Error>)
    ensures Strip(keywordIn) == [] ==> r == View(a)
    ensures Strip(keywordIn) != [] && Inv(a) ==>
              r.Success? && Selects(r.value, a.websites, s => Found(s, Lower(Strip(keywordIn))))
    ensures r.Success? ==> IsSubsequence(r.value, a.websites)
  {
    var k := Lower(Strip(keywordIn));
    if k == [] then
      SubsequenceReflexive(a.websites);
      View(a)
    else SearchMatches(a.websites, k)
  }

  /** White space around the keyword makes no difference. */
  lemma SearchIgnoresSurroundingSpace(a: App, keyword: string)
    ensures SearchWebsite(a, Strip(keyword)) == SearchWebsite(a, keyword)
  {
    StripIdempotent(keyword);
  }
}

=== FILE: loader.dfy ===
/** load_websites of both stores: the line-by-line read of an existing data
    file, the fallback to the built-in catalog, and the first run that
    writes the catalog out. */
module Loader {
  import opened Wrappers
  import opened Json
  import opened Sites
  import opened Seqs
  import opened Storage

  /** What start-up reads from its surroundings: the home directory, the
      APPDATA variable if set, and how the file operations turn out. */
  datatype Env = Env(home: string, appData: Option<string>, copyFails: set<Path>, readFails: bool, writeFault: WriteFault)

  /** migrate_old_data with APPDATA read as "" when unset: the first legacy
      data file that can be copied becomes the data file, unless that
      exists already. */
  function Migrated(fs: FileSystem, env: Env): FileSystem {
    Migrate(fs, LegacyPaths(env.home, GetEnvOr(env.appData, "")), DataFile(env.home), env.copyFails)
  }

  /** A line the loader keeps: it decodes to an object that validate_site
      accepts. */
  predicate IsRecordLine(l: Line) {
    l.Encoded? && l.value.Obj? && Valid(Site(l.value.fields))
  }

  /** One pass of the inner loop body: an undecodable line is skipped
      (JSONDecodeError is caught), a decoded one is validated, and an
      exception from validate_site escapes the loop. */
  function LineTest(l: Line): (r: Result<bool, Error>)
    ensures r == Success(true) <==> IsRecordLine(l)
    ensures r.Failure? <==> l.Encoded? && ValidateSite(l.value).Failure?
  {
    match l
    case Undecodable => Success(false)
    case Encoded(v) => ValidateSite(v)
  }

  /** The record a kept line holds. */
  function DecodeAll(ls: seq<Line>): (r: seq<Site>)
    requires forall i :: 0 <= i < |ls| ==> ls[i].Encoded? && ls[i].value.Obj?
    ensures EncodeAll(r) == ls
  {
    if ls == [] then []
    else
      var r := [Site(ls[0].value.fields)] + DecodeAll(ls[1..]);
      assert EncodeAll(r)[1..] == EncodeAll(r[1..]);
      r
  }

  /** The loop over the lines of an existing, readable data file: the
      records of the lines that decode to a valid object, in file order;
      or the exception that escaped, when a line decodes to something that
      makes validate_site raise. */
  function ReadSites(lines: seq<Line>): (r: Result<seq<Site>, Error>)
    ensures r.Success? <==> forall i :: 0 <= i < |lines| ==> LineTest(lines[i]).Success?
    ensures r.Success? ==> Selects(EncodeAll(r.value), lines, IsRecordLine)
    ensures r.Success? ==> forall i :: 0 <= i < |r.value| ==> Valid(r.value[i])
    ensures r.Failure? ==> r.error == TypeError
  {
    match TryFilter(lines, LineTest)
    case Failure(e) => Failure(e)
    case Success(kept) => Success(Records(kept, lines))
  }

  /** The records of the lines the loop kept. */
  function Records(kept: seq<Line>, lines: seq<Line>): (r: seq<Site>)
    requires Selects(kept, lines, x => Passes(LineTest, x))
    requires forall i :: 0 <= i < |kept| ==> Passes(LineTest, kept[i])
    ensures Selects(EncodeAll(r), lines, IsRecordLine)
    ensures forall i :: 0 <= i < |r| ==> Valid(r[i])
  {
    SelectsSame(kept, lines, x => Passes(LineTest, x), IsRecordLine);
    var r := DecodeAll(kept);
    assert forall i :: 0 <= i < |r| ==> EncodeAll(r)[i] == kept[i];
    r
  }

  /** No line makes validate_site raise. */
  predicate NoRaisingLine(lines: seq<Line>) {
    forall i :: 0 <= i < |lines| ==> LineTest(lines[i]).Success?
  }

  /** load_websites on an existing data file; contents is None when opening
      or reading it raises. Any exception that reaches the outer handler,
      and a file with no valid record, give the default catalog. */
  function LoadExisting(contents: Option<seq<Line>>, defaults: seq<Site>): (r: seq<Site>)
    ensures r == defaults || (r != [] && forall i :: 0 <= i < |r| ==> Valid(r[i]))
    ensures contents.None? ==> r == defaults
    ensures contents.Some? && !NoRaisingLine(contents.value) ==> r == defaults
    ensures contents.Some? && NoRaisingLine(contents.value) && (forall i :: 0 <= i < |contents.value| ==> !IsRecordLine(contents.value[i])) ==> r == defaults
    ensures contents.Some? && NoRaisingLine(contents.value) && (exists i :: 0 <= i < |contents.value| && IsRecordLine(contents.value[i])) ==>
              Selects(EncodeAll(r), contents.value, IsRecordLine)
  {
    match contents
    case None => defaults
    case Some(lines) =>
      match ReadSites(lines)
      case Failure(_) => defaults
      case Success(ws) =>
        SelectsLength(EncodeAll(ws), lines, IsRecordLine);
        if ws == [] then
          assert forall i :: 0 <= i < |lines| ==> !IsRecordLine(lines[i]) by {
            SelectsMembers(EncodeAll(ws), lines, IsRecordLine);
            forall i | 0 <= i < |lines|
              ensures !IsRecordLine(lines[i])
            {
              assert lines[i] in lines;
            }
          }
          defaults
        else
          assert exists i :: 0 <= i < |lines| && IsRecordLine(lines[i]) by {
            SelectsMembers(EncodeAll(ws), lines, IsRecordLine);
            assert EncodeAll(ws)[0] in EncodeAll(ws);
          }
          ws
  }

  /** `s[:n]` with Python's clamping. */
  function Take(s: seq<Site>, n: nat): (r: seq<Site>)
    ensures |r| == if n <= |s| then n else |s|
    ensures r == s[..|r|]
  {
    if n <= |s| then s[..n] else s
  }

  /** load_websites as a whole. When the data file is missing the catalog
      is written to it; if that write raises, the first `fallback` records
      of the catalog are returned instead. Returns the file system after
      the call and the records. */
  function Load(fs: FileSystem, p: Path, readFails: bool, fault: WriteFault, defaults: seq<Site>, fallback: nat): (r: (FileSystem, seq<Site>))
    ensures p in fs ==> r.0 == fs && r.1 == LoadExisting(if readFails then None else Some(fs[p]), defaults)
    ensures p !in fs && WriteLines(fs, p, EncodeAll(defaults), fault).1 ==> r.0 == fs[p := EncodeAll(defaults)] && r.1 == defaults
    ensures p !in fs && !WriteLines(fs, p, EncodeAll(defaults), fault).1 ==>
              r.0 == WriteLines(fs, p, EncodeAll(defaults), fault).0 && r.1 == Take(defaults, fallback)
    ensures forall q :: q != p ==> (q in r.0 <==> q in fs) && (q in fs ==> r.0[q] == fs[q])
  {
    if p in fs then (fs, LoadExisting(if readFails then None else Some(fs[p]), defaults))
    else
      var w := WriteLines(fs, p, EncodeAll(defaults), fault);
      (w.0, if w.1 then defaults else Take(defaults, fallback))
  }

  /** Whatever load_websites returns is non-empty and has a string name
      and url in every record, provided the catalog is and does. */
  lemma LoadWellTyped(fs: FileSystem, p: Path, readFails: bool, fault: WriteFault, defaults: seq<Site>, fallback: nat)
    requires forall i :: 0 <= i < |defaults| ==> WellTyped(defaults[i])
    ensures var ws := Load(fs, p, readFails, fault, defaults, fallback).1;
            forall i :: 0 <= i < |ws| ==> WellTyped(ws[i])
    ensures defaults != [] && fallback > 0 ==> Load(fs, p, readFails, fault, defaults, fallback).1 != []
  {
  }

  /** What save_websites writes, load_websites reads back: a non-empty list
      of valid records survives the round trip unchanged. */
  lemma {:induction false} SaveLoadRoundTrip(fs: FileSystem, p: Path, ws: seq<Site>, backupFails: bool, fault: WriteFault, defaults: seq<Site>)
    requires Save(fs, p, ws, backupFails, fault).1
    requires ws != [] && forall i :: 0 <= i < |ws| ==> Valid(ws[i])
    ensures var fs1 := Save(fs, p, ws, backupFails, fault).0;
            p in fs1 && LoadExisting(Some(fs1[p]), defaults) == ws
  {
    var lines := EncodeAll(ws);
    assert forall i :: 0 <= i < |lines| ==> IsRecordLine(lines[i]);
    var r := ReadSites(lines);
    assert r.Success?;
    SelectsLength(EncodeAll(r.value), lines, IsRecordLine);
    EncodeAllInjective(r.value, ws);
    assert IsRecordLine(lines[0]);
  }
}

=== FILE: manager.dfy ===
/** WebsiteManager, the site-record store of the Kivy app: its state, its
    start-up (paths, migration, load) and its operations. The uuid token,
    the clock and the outcome of every file operation are parameters. */
module WebsiteManager {
  import opened Wrappers
  import opened Text
  import opened Json
  import opened UrlShape
  import opened Sites
  import opened Seqs
  import opened Storage
  import opened Loader
  import opened Defaults
  import opened Categories
  import opened Queries

  /** The store: the file system it writes to, its data file, its records
      and the category filter last chosen. */
  datatype Manager = Manager(fs: FileSystem, dataFile: Path, websites: seq<Site>, currentFilter: string)

  /** Every record has a string name and url. */
  predicate Inv(m: Manager) {
    forall i :: 0 <= i < |m.websites| ==> WellTyped(m.websites[i])
  }

  /** __init__: migrate the first legacy data file when there is none yet,
      then load. */
  function Init(fs: FileSystem, env: Env): (m: Manager)
    ensures m.dataFile == DataFile(env.home) && m.currentFilter == AllCategories
    ensures Inv(m) && m.websites != []
    ensures var fs1 := Migrated(fs, env);
            DataFile(env.home) in fs1 ==>
              m.fs == fs1 && m.websites == LoadExisting(if env.readFails then None else Some(fs1[DataFile(env.home)]), MainDefaults())
  {
    Open(Migrated(fs, env), DataFile(env.home), env, MainDefaults())
  }

  /** The load step of __init__. A failed first write of the catalog leaves
      its first five records. */
  function Open(fs: FileSystem, p: Path, env: Env, defaults: seq<Site>): (m: Manager)
    requires defaults != [] && forall i :: 0 <= i < |defaults| ==> WellTyped(defaults[i])
    ensures m.dataFile == p && m.currentFilter == AllCategories
    ensures Inv(m) && m.websites != []
    ensures p in fs ==> m.fs == fs && m.websites == LoadExisting(if env.readFails then None else Some(fs[p]), defaults)
    ensures p !in fs && WriteLines(fs, p, EncodeAll(defaults), env.writeFault).1 ==>
              m.fs == fs[p := EncodeAll(defaults)] && m.websites == defaults
    ensures p !in fs && !WriteLines(fs, p, EncodeAll(defaults), env.writeFault).1 ==>
              m.fs == WriteLines(fs, p, EncodeAll(defaults), env.writeFault).0 && m.websites == Take(defaults, 5)
  {
    var r := Load(fs, p, env.readFails, env.writeFault, defaults, 5);
    LoadWellTyped(fs, p, env.readFails, env.writeFault, defaults, 5);
    Manager(r.0, p, r.1, AllCategories)
  }

  /** A fresh data file receives the catalog, and the store holds it. */
  lemma InitFirstRun(fs: FileSystem, env: Env)
    requires DataFile(env.home) !in fs
    requires forall q :: q in LegacyPaths(env.home, GetEnvOr(env.appData, "")) ==> q !in fs
    requires env.writeFault.NoFault?
    ensures var m := Init(fs, env);
            m.websites == MainDefaults() && m.fs[m.dataFile] == EncodeAll(MainDefaults())
  {
    var p := DataFile(env.home);
    var legacy := LegacyPaths(env.home, GetEnvOr(env.appData, ""));
    MigrateFirstWins(fs, legacy, p, env.copyFails);
    assert Migrated(fs, env) == fs;
  }

  /** save_websites. */
  function SaveWebsites(m: Manager, backupFails: bool, fault: WriteFault): (r: (Manager, bool))
    ensures r.0.websites == m.websites && r.0.dataFile == m.dataFile && r.0.currentFilter == m.currentFilter
    ensures r.1 ==> m.dataFile in r.0.fs && r.0.fs[m.dataFile] == EncodeAll(m.websites)
    ensures r.1 && m.dataFile in m.fs ==>
              BackupPath(m.dataFile) in r.0.fs && r.0.fs[BackupPath(m.dataFile)] == m.fs[m.dataFile]
    ensures (r.0.fs, r.1) == Save(m.fs, m.dataFile, m.websites, backupFails, fault)
  {
    var s := Save(m.fs, m.dataFile, m.websites, backupFails, fault);
    (m.(fs := s.0), s.1)
  }

  // ---------------------------------------------------------------------
  // Adding

  /** add_website: a url without a lower-case http:// or https:// prefix
      gets https:// put in front; a url the pattern rejects raises
      ValueError and changes nothing; otherwise the record is appended and
      the list saved. */
  function AddWebsite(m: Manager, name: string, url: string, category: string, token: string, createdAt: string,
                      backupFails: bool, fault: WriteFault): (r: Result<(Manager, Site), Error>)
    ensures r.Failure? <==> !IsValidUrl(WithScheme(url))
    ensures r.Failure? ==> r.error == ValueError
    ensures r.Success? ==> r.value.0.websites == m.websites + [r.value.1]
    ensures r.Success? ==> var s := r.value.1;
              Valid(s) && Name(s) == name && Url(s) == WithScheme(url) && HasCategory(s, category)
              && HasId(s, category + "_" + token) && "created_at" in s.fields && s.fields["created_at"] == Str(createdAt)
    ensures r.Success? ==> r.value.1.fields.Keys == {"id", "name", "url", "category", "created_at"}
    ensures r.Success? ==> r.value.0.dataFile == m.dataFile && r.value.0.currentFilter == m.currentFilter
    ensures r.Success? && Save(m.fs, m.dataFile, r.value.0.websites, backupFails, fault).1 ==>
              m.dataFile in r.value.0.fs && r.value.0.fs[m.dataFile] == EncodeAll(r.value.0.websites)
    ensures r.Success? ==> r.value.0 == SaveWebsites(m.(websites := r.value.0.websites), backupFails, fault).0
    ensures r.Success? && Inv(m) ==> Inv(r.value.0)
    ensures r.Success? && IsHexToken(token) && TokenUnused(m.websites, token) ==>
              forall i :: 0 <= i < |r.value.0.websites| && HasId(r.value.0.websites[i], category + "_" + token) ==> i == |m.websites|
  {
    var u := WithScheme(url);
    if !IsValidUrl(u) then Failure(ValueError)
    else
      var site := NewSite(category + "_" + token, name, u, category, createdAt);
      var m1 := Append(m, site, backupFails, fault);
      if IsHexToken(token) && TokenUnused(m.websites, token) then
        NoRecordHasFreshId(m.websites, category, token);
        OnlyLastHasId(m.websites, site, category + "_" + token);
        Success((m1, site))
      else Success((m1, site))
  }

  /** add_website called without a category: the record goes to "我的". */
  function AddWebsiteToMine(m: Manager, name: string, url: string, token: string, createdAt: string,
                            backupFails: bool, fault: WriteFault): (r: Result<(Manager, Site), Error>)
    ensures r.Failure? <==> !IsValidUrl(WithScheme(url))
    ensures r.Success? ==> HasCategory(r.value.1, MyCategory) && HasId(r.value.1, MyCategory + "_" + token)
    ensures r.Success? ==> r.value.0.websites == m.websites + [r.value.1]
  {
    AddWebsite(m, name, url, MyCategory, token, createdAt, backupFails, fault)
  }

  /** Append a record and save the list. */
  function Append(m: Manager, site: Site, backupFails: bool, fault: WriteFault): (r: Manager)
    ensures r.websites == m.websites + [site]
    ensures r.dataFile == m.dataFile && r.currentFilter == m.currentFilter
    ensures Save(m.fs, m.dataFile, r.websites, backupFails, fault).1 ==>
              m.dataFile in r.fs && r.fs[m.dataFile] == EncodeAll(r.websites)
    ensures r == SaveWebsites(m.(websites := r.websites), backupFails, fault).0
    ensures Inv(m) && WellTyped(site) ==> Inv(r)
  {
    SaveWebsites(m.(websites := m.websites + [site]), backupFails, fault).0
  }

  /** An empty name passes: the store itself does not check it. */
  lemma AddAcceptsEmptyName(m: Manager, url: string, category: string, token: string, createdAt: string)
    requires IsValidUrl(WithScheme(url))
    ensures var r := AddWebsite(m, "", url, category, token, createdAt, false, NoFault);
            r.Success? && Name(r.value.1) == ""
  {
  }

  // ---------------------------------------------------------------------
  // Deleting

  /** delete_website: drop every record with the id, and save only when
      something was dropped. Returns whether the list got shorter. A record
      without an id raises KeyError before anything changes. */
  function DeleteWebsite(m: Manager, id: string, backupFails: bool, fault: WriteFault): (r: Result<(Manager, bool), Error>)
    ensures r.Success? <==> forall i :: 0 <= i < |m.websites| ==> "id" in m.websites[i].fields
    ensures r.Failure? ==> r.error == KeyError("id")
    ensures r.Success? ==> (r.value.1 <==> exists i :: 0 <= i < |m.websites| && HasId(m.websites[i], id))
    ensures r.Success? ==> Selects(r.value.0.websites, m.websites, s => !HasId(s, id))
    ensures r.Success? && !r.value.1 ==> r.value.0 == m
    ensures r.Success? && r.value.1 ==> |r.value.0.websites| < |m.websites|
    ensures r.Success? ==> r.value.0.dataFile == m.dataFile && r.value.0.currentFilter == m.currentFilter
    ensures r.Success? && r.value.1 ==> r.value.0 == SaveWebsites(m.(websites := r.value.0.websites), backupFails, fault).0
    ensures r.Success? && Inv(m) ==> Inv(r.value.0)
  {
    match RemoveId(m.websites, id)
    case Failure(e) => Failure(e)
    case Success(ws) =>
      RemoveIdShortens(m.websites, id);
      if |ws| < |m.websites| then
        var s := SaveWebsites(m.(websites := ws), backupFails, fault);
        Success((s.0, true))
      else Success((m, false))
  }

  /** Deleting the id of a record just added with a fresh token removes
      exactly that record. */
  lemma AddThenDelete(m: Manager, name: string, url: string, category: string, token: string,
                      createdAt: string, backupFails: bool, fault: WriteFault)
    requires IsHexToken(token) && TokenUnused(m.websites, token)
    requires forall i :: 0 <= i < |m.websites| ==> "id" in m.websites[i].fields
    requires IsValidUrl(WithScheme(url))
    ensures var m1 := AddWebsite(m, name, url, category, token, createdAt, backupFails, fault).value.0;
            var r := DeleteWebsite(m1, category + "_" + token, backupFails, fault);
            r.Success? && r.value.1 && r.value.0.websites == m.websites
  {
    var id := category + "_" + token;
    var a := AddWebsite(m, name, url, category, token, createdAt, backupFails, fault).value;
    NoRecordHasFreshId(m.websites, category, token);
    DeleteAppended(a.0, m.websites, a.1, id, backupFails, fault);
  }

  lemma DeleteAppended(m1: Manager, base: seq<Site>, x: Site, id: string, backupFails: bool, fault: WriteFault)
    requires m1.websites == base + [x] && HasId(x, id)
    requires forall i :: 0 <= i < |base| ==> "id" in base[i].fields && !HasId(base[i], id)
    ensures var r := DeleteWebsite(m1, id, backupFails, fault);
            r.Success? && r.value.1 && r.value.0.websites == base
  {
    var r := DeleteWebsite(m1, id, backupFails, fault);
    assert forall i :: 0 <= i < |m1.websites| ==> "id" in m1.websites[i].fields by {
      forall i | 0 <= i < |m1.websites|
        ensures "id" in m1.websites[i].fields
      {
        if i < |base| {
          assert m1.websites[i] == base[i];
        }
      }
    }
    assert r.Success?;
    assert HasId(m1.websites[|base|], id);
    var p := s => !HasId(s, id);
    SelectsAppendDrop(base, x, p);
    SelectsUnique(r.value.0.websites, base, m1.websites, p);
  }

  /** Selecting from s + [x] where x fails and everything in s passes gives s. */
  lemma SelectsAppendDrop(s: seq<Site>, x: Site, p: Site -> bool)
    requires forall i :: 0 <= i < |s| ==> p(s[i])
    requires !p(x)
    ensures Selects(s, s + [x], p)
  {
    SubsequenceAppend(s, x);
    forall y
      ensures multiset(s)[y] == if p(y) then multiset(s + [x])[y] else 0
    {
      assert multiset(s + [x]) == multiset(s) + multiset{x};
      if !p(y) {
        assert y !in s;
      }
    }
  }

  lemma {:induction false} SubsequenceAppend(s: seq<Site>, x: Site)
    ensures IsSubsequence(s, s + [x])
    decreases |s|
  {
    if s == [] {
      assert IsSubsequence([], [x][1..]);
    } else {
      SubsequenceAppend(s[1..], x);
      assert (s + [x])[1..] == s[1..] + [x];
    }
  }

  // ---------------------------------------------------------------------
  // Queries

  /** filter_sites: remember the category, then return the whole list for
      "全部" and the records of that category otherwise. The category is
      remembered even when a record without one raises KeyError. */
  function FilterSites(m: Manager, category: string): (r: (Manager, Result<seq<Site>, Error>))
    ensures r.0 == m.(currentFilter := category)
    ensures category == AllCategories ==> r.1 == Success(m.websites)
    ensures category != AllCategories && r.1.Success? ==> Selects(r.1.value, m.websites, s => HasCategory(s, category))
    ensures r.1.Success? <==> category == AllCategories || forall i :: 0 <= i < |m.websites| ==> "category" in m.websites[i].fields
  {
    (m.(currentFilter := category), CategoryView(m.websites, category))
  }

  /** search_website: an empty keyword shows the current filter's view;
      otherwise the records whose lower-cased name or url contains the
      lower-cased keyword, whatever the filter. Under the store's invariant
      the search cannot raise. */
  function SearchWebsite(m: Manager, keyword: string): (r: (Manager, Result<seq<Site>, Error>))
    ensures r.0 == m
    ensures keyword == [] ==> r.1 == FilterSites(m, m.currentFilter).1
    ensures keyword != [] && Inv(m) ==> r.1.Success? && Selects(r.1.value, m.websites, s => Found(s, Lower(keyword)))
    ensures r.1.Success? ==> IsSubsequence(r.1.value, m.websites)
  {
    if keyword == [] then
      SubsequenceReflexive(m.websites);
      FilterSites(m, m.currentFilter)
    else (m, SearchMatches(m.websites, Lower(keyword)))
  }

  /** The search ignores case: a keyword and its lower-cased form find the
      same records. */
  lemma SearchIgnoresCase(m: Manager, keyword: string)
    requires keyword != [] && Inv(m)
    ensures SearchWebsite(m, keyword) == SearchWebsite(m, Lower(keyword))
  {
    LowerIdempotent(keyword);
  }

  /** get_all_categories. */
  function GetAllCategories(m: Manager): (r: Result<seq<string>, Error>)
    ensures r.Success? <==> forall i :: 0 <= i < |m.websites| ==> CategoryOf(m.websites[i]).Success?
    ensures r.Success? ==> StrictlySorted(r.value) && forall c :: c in r.value <==> CategoryIn(m.websites, c)
    ensures r.Failure? ==> r.error == TypeError || r.error == KeyError("category")
  {
    AllCategoriesOf(m.websites)
  }
}

=== FILE: queries.dfy ===
/** The list comprehensions both stores run over their records: the
    category view, the keyword search and the removal by id, each with the
    exceptions a record lacking a key provokes. */
module Queries {
  import opened Wrappers
  import opened Text
  import opened Json
  import opened Sites
  import opened Seqs
  import opened Categories

  // ---------------------------------------------------------------------
  // Category view

  /** `s["category"] == c`. */
  function CategoryTest(s: Site, c: string): (r: Result<bool, Error>)
    ensures r.Success? <==> "category" in s.fields
    ensures r.Success? ==> (r.value <==> HasCategory(s, c))
    ensures r.Failure? ==> r.error == KeyError("category")
  {
    match Field(s, "category")
    case Failure(e) => Failure(e)
    case Success(v) => Success(v == Str(c))
  }

  /** The records shown under a filter: all of them for "全部", otherwise
      those whose category is the filter, in order. */
  function CategoryView(ws: seq<Site>, c: string): (r: Result<seq<Site>, Error>)
    ensures c == AllCategories ==> r == Success(ws)
    ensures c != AllCategories ==> (r.Success? <==> forall i :: 0 <= i < |ws| ==> "category" in ws[i].fields)
    ensures c != AllCategories && r.Success? ==> Selects(r.value, ws, s => HasCategory(s, c))
    ensures r.Failure? ==> r.error == KeyError("category")
  {
    if c == AllCategories then Success(ws)
    else
      var p := s => CategoryTest(s, c);
      var r := TryFilter(ws, p);
      if r.Success? then
        SelectsSame(r.value, ws, x => Passes(p, x), s => HasCategory(s, c));
        r
      else
        var i :| 0 <= i < |ws| && p(ws[i]) == Failure(r.error);
        r
  }

  // ---------------------------------------------------------------------
  // Keyword search

  /** `k in s["name"].lower() or k in s["url"].lower()`: the url is looked
      up only when the name does not match. */
  function KeywordTest(s: Site, k: string): (r: Result<bool, Error>)
    ensures WellTyped(s) ==> r == Success(MatchesKeyword(s, k))
  {
    match LoweredField(s, "name")
    case Failure(e) => Failure(e)
    case Success(n) =>
      if Contains(n, k) then Success(true)
      else match LoweredField(s, "url")
        case Failure(e) => Failure(e)
        case Success(u) => Success(Contains(u, k))
  }

  /** The lower-cased keyword occurs in the lower-cased name or url. */
  predicate MatchesKeyword(s: Site, k: string)
    requires WellTyped(s)
  {
    Contains(Lower(Name(s)), k) || Contains(Lower(Url(s)), k)
  }

  /** A record the search keeps: it has a string name and url, one of
      which contains the keyword. */
  predicate Found(s: Site, k: string) {
    WellTyped(s) && MatchesKeyword(s, k)
  }

  /** The records whose lower-cased name or url contains k, in order. On
      records whose name and url are strings the search cannot fail. */
  function SearchMatches(ws: seq<Site>, k: string): (r: Result<seq<Site>, Error>)
    ensures r.Success? <==> forall i :: 0 <= i < |ws| ==> KeywordTest(ws[i], k).Success?
    ensures (forall i :: 0 <= i < |ws| ==> WellTyped(ws[i])) ==> r.Success? && Selects(r.value, ws, s => Found(s, k))
    ensures r.Success? ==> IsSubsequence(r.value, ws)
  {
    var p := s => KeywordTest(s, k);
    var r := TryFilter(ws, p);
    if r.Success? && forall i :: 0 <= i < |ws| ==> WellTyped(ws[i]) then
      SelectsSame(r.value, ws, x => Passes(p, x), s => Found(s, k));
      r
    else r
  }

  // ---------------------------------------------------------------------
  // Removal by id

  /** The record's id is the string id. */
  predicate HasId(s: Site, id: string) {
    "id" in s.fields && s.fields["id"] == Str(id)
  }

  /** `s["id"] != id`. */
  function KeepTest(s: Site, id: string): (r: Result<bool, Error>)
    ensures r.Success? <==> "id" in s.fields
    ensures r.Success? ==> (r.value <==> !HasId(s, id))
    ensures r.Failure? ==> r.error == KeyError("id")
  {
    match Field(s, "id")
    case Failure(e) => Failure(e)
    case Success(v) => Success(v != Str(id))
  }

  /** `[s for s in ws if s["id"] != id]`. */
  function RemoveId(ws: seq<Site>, id: string): (r: Result<seq<Site>, Error>)
    ensures r.Success? <==> forall i :: 0 <= i < |ws| ==> "id" in ws[i].fields
    ensures r.Success? ==> Selects(r.value, ws, s => !HasId(s, id))
    ensures r.Failure? ==> r.error == KeyError("id")
  {
    var p := s => KeepTest(s, id);
    var r := TryFilter(ws, p);
    if r.Success? then
      SelectsSame(r.value, ws, x => Passes(p, x), s => !HasId(s, id));
      r
    else
      var i :| 0 <= i < |ws| && p(ws[i]) == Failure(r.error);
      r
  }

  /** Removal shortens the list exactly when some record has the id, and
      leaves it as it was otherwise. */
  lemma RemoveIdShortens(ws: seq<Site>, id: string)
    requires RemoveId(ws, id).Success?
    ensures |RemoveId(ws, id).value| < |ws| <==> exists i :: 0 <= i < |ws| && HasId(ws[i], id)
    ensures (forall i :: 0 <= i < |ws| ==> !HasId(ws[i], id)) ==> RemoveId(ws, id).value == ws
    ensures forall s :: s in RemoveId(ws, id).value ==> s in ws && !HasId(s, id)
  {
    SelectsLength(RemoveId(ws, id).value, ws, s => !HasId(s, id));
    SelectsMembers(RemoveId(ws, id).value, ws, s => !HasId(s, id));
  }

  /** `next((s["name"] for s in ws if s["id"] == id), "")`: the name of the
      first record with the id, or "" when there is none. The generator
      stops at the first match, so only the records up to it must have an
      id, and only the match must have a name. */
  function FirstNameWithId(ws: seq<Site>, id: string): (r: Result<Value, Error>)
    ensures IdsBefore(ws, |ws|, id) ==> r == Success(Str(""))
    ensures forall i :: 0 <= i < |ws| && HasId(ws[i], id) && IdsBefore(ws, i, id) ==> r == Field(ws[i], "name")
    ensures forall i :: 0 <= i < |ws| && "id" !in ws[i].fields && IdsBefore(ws, i, id) ==> r == Failure(KeyError("id"))
    ensures r.Failure? ==> r.error == KeyError("id") || r.error == KeyError("name")
  {
    if ws == [] then Success(Str(""))
    else match Field(ws[0], "id")
      case Failure(e) => Failure(e)
      case Success(v) =>
        if v == Str(id) then Field(ws[0], "name")
        else
          var r := FirstNameWithId(ws[1..], id);
          assert forall i :: 0 < i < |ws| && IdsBefore(ws, i, id) ==> IdsBefore(ws[1..], i - 1, id);
          r
  }

  /** Every record before position i has an id other than id. */
  predicate IdsBefore(ws: seq<Site>, i: int, id: string)
    requires 0 <= i <= |ws|
  {
    forall j :: 0 <= j < i ==> "id" in ws[j].fields && !HasId(ws[j], id)
  }

  /** The record ids add_website makes: the category, "_", and a uuid4 hex
      token of 32 lower-case hex digits. */
  predicate IsHexToken(t: string) {
    |t| == 32 && forall i :: 0 <= i < |t| ==> '0' <= t[i] <= '9' || 'a' <= t[i] <= 'f'
  }

  /** The token at the end of an id of the shape category_token. */
  function TokenOf(id: string): (r: Option<string>)
    ensures r.Some? ==> |r.value| == 32 && exists c :: id == c + "_" + r.value
  {
    if |id| >= 33 && id[|id| - 33] == '_' then
      assert id == id[..|id| - 33] + "_" + id[|id| - 32..];
      Some(id[|id| - 32..])
    else None
  }

  /** No record has an id that ends in "_" followed by token. */
  predicate TokenUnused(ws: seq<Site>, token: string) {
    forall i :: 0 <= i < |ws| && "id" in ws[i].fields && ws[i].fields["id"].Str? ==>
      TokenOf(ws[i].fields["id"].str) != Some(token)
  }

  /** A token no id ends in makes an id no record has. */
  lemma NoRecordHasFreshId(ws: seq<Site>, category: string, token: string)
    requires IsHexToken(token) && TokenUnused(ws, token)
    ensures forall i :: 0 <= i < |ws| ==> !HasId(ws[i], category + "_" + token)
  {
    var id := category + "_" + token;
    assert id[|id| - 33] == '_' && id[|id| - 32..] == token;
    assert TokenOf(id) == Some(token);
  }

  /** An id none of base has is, in base + [x], at most at the end. */
  lemma OnlyLastHasId(base: seq<Site>, x: Site, id: string)
    requires forall i :: 0 <= i < |base| ==> !HasId(base[i], id)
    ensures forall i :: 0 <= i < |base + [x]| && HasId((base + [x])[i], id) ==> i == |base|
  {
    forall i | 0 <= i < |base|
      ensures (base + [x])[i] == base[i]
    {
    }
  }
}

=== FILE: seqs.dfy ===
/** Order-preserving selection from a sequence, as a Python list comprehension
    `[x for x in xs if p(x)]` performs it, with an independent description
    (subsequence plus exact multiplicities) and the proof that the
    description pins the result down. */
module Seqs {
  import opened Wrappers

  /** r can be obtained from s by deleting elements, keeping order. */
  predicate IsSubsequence<T(==,!new)>(r: seq<T>, s: seq<T>)
    decreases |s|
  {
    if s == [] then r == []
    else (r != [] && r[0] == s[0] && IsSubsequence(r[1..], s[1..])) || IsSubsequence(r, s[1..])
  }

  lemma {:induction false} SubsequenceReflexive<T(!new)>(s: seq<T>)
    ensures IsSubsequence(s, s)
    decreases |s|
  {
    if s != [] {
      SubsequenceReflexive(s[1..]);
    }
  }

  /** r keeps, in order, exactly the elements of s that satisfy p, each
      as many times as it occurs in s. */
  ghost predicate Selects<T(!new)>(r: seq<T>, s: seq<T>, p: T -> bool) {
    && IsSubsequence(r, s)
    && forall x :: multiset(r)[x] == if p(x) then multiset(s)[x] else 0
  }

  /** `[x for x in s if p(x)]`. */
  function Filter<T(==,!new)>(s: seq<T>, p: T -> bool): (r: seq<T>)
    ensures Selects(r, s, p)
    ensures forall i :: 0 <= i < |r| ==> p(r[i])
  {
    if s == [] then []
    else
      var rest := Filter(s[1..], p);
      assert s == [s[0]] + s[1..];
      if p(s[0]) then
        var r := [s[0]] + rest;
        assert r[1..] == rest;
        r
      else rest
  }

  lemma {:induction false} SubsequenceMultiset<T(!new)>(r: seq<T>, s: seq<T>)
    requires IsSubsequence(r, s)
    ensures multiset(r) <= multiset(s)
    decreases |s|
  {
    if s != [] {
      assert s == [s[0]] + s[1..];
      if r != [] && r[0] == s[0] && IsSubsequence(r[1..], s[1..]) {
        SubsequenceMultiset(r[1..], s[1..]);
        assert r == [r[0]] + r[1..];
      } else {
        SubsequenceMultiset(r, s[1..]);
      }
    }
  }

  lemma {:induction false} SubsequenceSet<T(!new)>(r: seq<T>, s: seq<T>)
    requires IsSubsequence(r, s)
    ensures forall x :: x in r ==> x in s
  {
    SubsequenceMultiset(r, s);
    forall x | x in r
      ensures x in s
    {
      assert multiset(r)[x] > 0;
    }
  }

  /** The selection is unique: two sequences that both select from s by p
      are equal, so Selects says everything about a comprehension's result. */
  lemma {:induction false} SelectsUnique<T(!new)>(r1: seq<T>, r2: seq<T>, s: seq<T>, p: T -> bool)
    requires Selects(r1, s, p) && Selects(r2, s, p)
    ensures r1 == r2
    decreases |s|
  {
    if s == [] {
    } else {
      var x := s[0];
      var t := s[1..];
      assert s == [x] + t;
      var t1 := SelectsStep(r1, s, p);
      var t2 := SelectsStep(r2, s, p);
      SelectsUnique(t1, t2, t, p);
    }
  }

  /** One step of the selection: peel off the first element of s. */
  lemma SelectsStep<T(!new)>(r: seq<T>, s: seq<T>, p: T -> bool) returns (rest: seq<T>)
    requires s != [] && Selects(r, s, p)
    ensures Selects(rest, s[1..], p)
    ensures p(s[0]) ==> r == [s[0]] + rest
    ensures !p(s[0]) ==> r == rest
  {
    var x := s[0];
    var t := s[1..];
    assert s == [x] + t;
    if r != [] && r[0] == x && IsSubsequence(r[1..], t) && p(x) {
      rest := r[1..];
      assert r == [x] + rest;
      forall y
        ensures multiset(rest)[y] == if p(y) then multiset(t)[y] else 0
      {
        assert multiset(r)[y] == multiset(rest)[y] + (if y == x then 1 else 0);
      }
    } else if p(x) {
      // r would skip the first x and so hold one x fewer than s does
      SubsequenceMultiset(r, t);
      assert false;
    } else {
      if r != [] && r[0] == x {
        assert false;
      }
      assert IsSubsequence(r, t);
      rest := r;
      forall y
        ensures multiset(rest)[y] == if p(y) then multiset(t)[y] else 0
      {
        if y != x {
          assert multiset(s)[y] == multiset(t)[y];
        }
      }
    }
  }

  /** The selected elements are exactly those of s that satisfy p. */
  lemma SelectsMembers<T(!new)>(r: seq<T>, s: seq<T>, p: T -> bool)
    requires Selects(r, s, p)
    ensures forall x :: x in r <==> x in s && p(x)
  {
    forall x
      ensures x in r <==> x in s && p(x)
    {
      assert x in r <==> multiset(r)[x] > 0;
      assert x in s <==> multiset(s)[x] > 0;
    }
  }

  /** Selection depends on the test only through its values on s. */
  lemma SelectsSame<T(!new)>(r: seq<T>, s: seq<T>, p: T -> bool, q: T -> bool)
    requires Selects(r, s, p)
    requires forall i :: 0 <= i < |s| ==> p(s[i]) == q(s[i])
    ensures Selects(r, s, q)
  {
    forall x
      ensures multiset(r)[x] == if q(x) then multiset(s)[x] else 0
    {
      if p(x) != q(x) {
        assert x !in s;
      }
    }
  }

  /** The selection is never longer than s; it is shorter exactly when some
      element fails the test, and it is s itself when none does. */
  lemma {:induction false} SelectsLength<T(!new)>(r: seq<T>, s: seq<T>, p: T -> bool)
    requires Selects(r, s, p)
    ensures |r| <= |s|
    ensures (exists i :: 0 <= i < |s| && !p(s[i])) ==> |r| < |s|
    ensures (forall i :: 0 <= i < |s| ==> p(s[i])) ==> r == s
    decreases |s|
  {
    if s == [] {
      assert r == [];
    } else {
      var rest := SelectsStep(r, s, p);
      SelectsLength(rest, s[1..], p);
      if exists i :: 0 <= i < |s| && !p(s[i]) {
        var i :| 0 <= i < |s| && !p(s[i]);
        if i > 0 {
          assert s[1..][i - 1] == s[i];
        }
      }
      if forall i :: 0 <= i < |s| ==> p(s[i]) {
        assert forall i :: 0 <= i < |s[1..]| ==> p(s[1..][i]) by {
          forall i | 0 <= i < |s[1..]|
            ensures p(s[1..][i])
          {
            assert s[1..][i] == s[i + 1];
          }
        }
        assert s == [s[0]] + s[1..];
      }
    }
  }

  predicate NoDuplicates<T(==,!new)>(s: seq<T>) {
    forall i, j :: 0 <= i < j < |s| ==> s[i] != s[j]
  }

  /** The test p ran on x without raising and said yes. */
  predicate Passes<T, E>(p: T -> Result<bool, E>, x: T) {
    p(x).Success? && p(x).value
  }

  /** Position of the first element on which the test raises, if any. */
  function FirstFailure<T, E>(s: seq<T>, p: T -> Result<bool, E>): (r: Option<nat>)
    ensures r.None? <==> forall i :: 0 <= i < |s| ==> p(s[i]).Success?
    ensures r.Some? ==> r.value < |s| && p(s[r.value]).Failure?
    ensures r.Some? ==> forall j :: 0 <= j < r.value ==> p(s[j]).Success?
  {
    if s == [] then None
    else if p(s[0]).Failure? then Some(0)
    else match FirstFailure(s[1..], p)
      case None => None
      case Some(i) => Some(i + 1)
  }

  /** `[x for x in s if p(x)]` where evaluating p may raise: the first
      exception, in list order, escapes the comprehension and no list is
      built. */
  function TryFilter<T(==,!new), E(==)>(s: seq<T>, p: T -> Result<bool, E>): (r: Result<seq<T>, E>)
    ensures r.Success? <==> forall i :: 0 <= i < |s| ==> p(s[i]).Success?
    ensures r.Success? ==> Selects(r.value, s, x => Passes(p, x))
    ensures r.Success? ==> forall i :: 0 <= i < |r.value| ==> Passes(p, r.value[i])
    ensures r.Failure? ==>
              exists i :: 0 <= i < |s| && p(s[i]) == Failure(r.error) && forall j :: 0 <= j < i ==> p(s[j]).Success?
  {
    match FirstFailure(s, p)
    case Some(i) => Failure(p(s[i]).error)
    case None => Success(Filter(s, x => Passes(p, x)))
  }
}

=== FILE: sites.dfy ===
/** A stored site record, the check the loader applies to each decoded
    line, and the pieces the add operations build a record from. */
module Sites {
  import opened Wrappers
  import opened Text
  import opened Json
  import opened UrlShape

  /** A record is the decoded JSON object itself: its keys and values. */
  datatype Site = Site(fields: map<string, Value>)

  /** The exceptions the store's operations can raise. */
  datatype Error = KeyError(key: string) | TypeError | AttributeError | ValueError

  /** `site[key]`. */
  function Field(s: Site, key: string): (r: Result<Value, Error>)
    ensures r.Success? <==> key in s.fields
    ensures r.Success? ==> r.value == s.fields[key]
    ensures r.Failure? ==> r.error == KeyError(key)
  {
    if key in s.fields then Success(s.fields[key]) else Failure(KeyError(key))
  }

  /** `site[key].lower()`: a missing key raises KeyError, a value that is
      not a string has no lower() and raises AttributeError. */
  function LoweredField(s: Site, key: string): (r: Result<string, Error>)
    ensures r.Success? <==> key in s.fields && s.fields[key].Str?
    ensures r.Success? ==> r.value == Lower(s.fields[key].str)
    ensures r.Failure? ==> r.error == if key in s.fields then AttributeError else KeyError(key)
  {
    match Field(s, key)
    case Failure(e) => Failure(e)
    case Success(v) => if v.Str? then Success(Lower(v.str)) else Failure(AttributeError)
  }

  /** name and url are present and hold strings. */
  predicate WellTyped(s: Site) {
    && "name" in s.fields && s.fields["name"].Str?
    && "url" in s.fields && s.fields["url"].Str?
  }

  function Name(s: Site): string
    requires WellTyped(s)
  {
    s.fields["name"].str
  }

  function Url(s: Site): string
    requires WellTyped(s)
  {
    s.fields["url"].str
  }

  /** A record validate_site accepts: name and url are strings and the url
      has the accepted shape. The name may be empty. */
  predicate Valid(s: Site) {
    WellTyped(s) && IsValidUrl(Url(s))
  }

  /** validate_site applied to whatever json.loads returned for a line.
      `"name" in v` is a key test on an object, a substring test on a
      string, a membership test on a list, and raises TypeError on a number,
      a boolean or null; indexing a string or a list with "name" raises
      TypeError as well, which happens once both membership tests pass. */
  function ValidateSite(v: Value): (r: Result<bool, Error>)
    ensures r == Success(true) <==> v.Obj? && Valid(Site(v.fields))
    ensures r.Failure? ==> r.error == TypeError && !v.Obj?
    ensures v.Null? || v.Bool? || v.Num? ==> r.Failure?
    ensures v.Str? ==> (r.Failure? <==> Contains(v.str, "name") && Contains(v.str, "url"))
    ensures v.Arr? ==> (r.Failure? <==> Str("name") in v.items && Str("url") in v.items)
  {
    match v
    case Null => Failure(TypeError)
    case Bool(_) => Failure(TypeError)
    case Num(_) => Failure(TypeError)
    case Str(t) => if Contains(t, "name") && Contains(t, "url") then Failure(TypeError) else Success(false)
    case Arr(xs) => if Str("name") in xs && Str("url") in xs then Failure(TypeError) else Success(false)
    case Obj(f) => Success(Valid(Site(f)))
  }

  /** The line `json.dumps(site)` writes, as the loader reads it back. */
  function Encode(s: Site): Line {
    Encoded(Obj(s.fields))
  }

  function EncodeAll(ws: seq<Site>): (r: seq<Line>)
    ensures |r| == |ws|
    ensures forall i :: 0 <= i < |ws| ==> r[i] == Encode(ws[i])
  {
    if ws == [] then [] else [Encode(ws[0])] + EncodeAll(ws[1..])
  }

  lemma EncodeInjective(a: Site, b: Site)
    ensures Encode(a) == Encode(b) ==> a == b
  {
  }

  lemma {:induction false} EncodeAllInjective(a: seq<Site>, b: seq<Site>)
    ensures EncodeAll(a) == EncodeAll(b) ==> a == b
  {
    if EncodeAll(a) == EncodeAll(b) {
      assert |a| == |b|;
      forall i | 0 <= i < |a|
        ensures a[i] == b[i]
      {
        assert EncodeAll(a)[i] == EncodeAll(b)[i];
      }
    }
  }

  /** A default-catalog record: id, name, url and category, all strings. */
  function Entry(id: string, name: string, url: string, category: string): (r: Site)
    ensures WellTyped(r) && Name(r) == name && Url(r) == url
    ensures r.fields.Keys == {"id", "name", "url", "category"}
    ensures r.fields["id"] == Str(id) && r.fields["category"] == Str(category)
  {
    Site(map["id" := Str(id), "name" := Str(name), "url" := Str(url), "category" := Str(category)])
  }

  /** The record an add operation appends. */
  function NewSite(id: string, name: string, url: string, category: string, createdAt: string): (r: Site)
    ensures WellTyped(r) && Name(r) == name && Url(r) == url
    ensures r.fields.Keys == {"id", "name", "url", "category", "created_at"}
    ensures r.fields["id"] == Str(id) && r.fields["category"] == Str(category)
    ensures r.fields["created_at"] == Str(createdAt)
  {
    Site(map["id" := Str(id), "name" := Str(name), "url" := Str(url),
             "category" := Str(category), "created_at" := Str(createdAt)])
  }

  predicate HasScheme(url: string) {
    IsPrefix("http://", url) || IsPrefix("https://", url)
  }

  /** `url.startswith(("http://", "https://"))`, case-sensitively, and
      "https://" put in front otherwise. */
  function WithScheme(url: string): (r: string)
    ensures HasScheme(r)
    ensures HasScheme(url) ==> r == url
    ensures !HasScheme(url) ==> r == "https://" + url
  {
    if HasScheme(url) then url else "https://" + url
  }

  lemma WithSchemeIdempotent(url: string)
    ensures WithScheme(WithScheme(url)) == WithScheme(url)
  {
  }

  /** The scheme test is case-sensitive while the URL pattern is not: a URL
      that starts with a scheme other than a lower-case http:// or https://
      (an upper-case "HTTP://", say, or "ftp://") gets a second scheme
      prepended and is then rejected. */
  lemma ForeignSchemeRejected(url: string, n: nat)
    requires 0 < n < |url| && url[n] == ':'
    requires forall k :: 0 <= k < n ==> IsLetter(url[k])
    requires !HasScheme(url)
    ensures !IsValidUrl(WithScheme(url))
  {
    var s := "https://" + url;
    assert s[..8] == "https://";
    forall k | 8 <= k < n + 8
      ensures IsLetter(s[k])
    {
      assert s[k] == url[k - 8];
    }
    RejectsSchemeInHost(s, n + 8);
  }
}

=== FILE: storage.dfy ===
/** The store's files over an abstract file system: the data file's path,
    the legacy paths of older versions, the save rule (back up, then
    rewrite) and the one-time migration. Failures of the file system are
    inputs: which copy fails, how a write ends. */
module Storage {
  import opened Wrappers
  import opened Json
  import opened Sites

  type Path = string

  /** The files the store touches, by path. A path absent from the map is
      a file that does not exist. */
  type FileSystem = map<Path, seq<Line>>

  /** How a write ends: it completes; open() fails and nothing changes; or
      open() truncates the file and writing stops after k lines. */
  datatype WriteFault = NoFault | OpenFails | StopsAfter(k: nat)

  /** Write lines to p in mode "w". The flag says whether no exception
      was raised. */
  function WriteLines(fs: FileSystem, p: Path, lines: seq<Line>, fault: WriteFault): (r: (FileSystem, bool))
    ensures r.1 <==> fault.NoFault? || (fault.StopsAfter? && fault.k >= |lines|)
    ensures r.1 ==> r.0 == fs[p := lines]
    ensures fault.OpenFails? ==> r.0 == fs
    ensures fault.StopsAfter? && !r.1 ==> r.0 == fs[p := lines[..fault.k]]
  {
    match fault
    case NoFault => (fs[p := lines], true)
    case OpenFails => (fs, false)
    case StopsAfter(k) => if k < |lines| then (fs[p := lines[..k]], false) else (fs[p := lines], true)
  }

  // ---------------------------------------------------------------------
  // Paths

  /** os.path.join of two parts on POSIX: an absolute second part replaces
      the first; otherwise a slash separates them unless the first is empty
      or already ends in one. */
  function Join(a: string, b: string): (r: string)
    ensures |b| > 0 && b[0] == '/' ==> r == b
    ensures !(|b| > 0 && b[0] == '/') ==> |r| >= |a| + |b| && r[..|a|] == a && r[|r| - |b|..] == b
  {
    if |b| > 0 && b[0] == '/' then b
    else if a == [] || a[|a| - 1] == '/' then a + b
    else a + "/" + b
  }

  /** os.path.join(a, *parts). */
  function JoinAll(a: string, parts: seq<string>): string
    decreases |parts|
  {
    if parts == [] then a else JoinAll(Join(a, parts[0]), parts[1..])
  }

  /** The data file both stores use: ~/.weblauncher/custom_sites.json. */
  function DataFile(home: string): Path {
    JoinAll(home, [".weblauncher", "custom_sites.json"])
  }

  /** The backup written before every save. */
  function BackupPath(p: Path): (r: Path)
    ensures r != p
  {
    p + ".bak"
  }

  /** The data files of older versions, in the order they are tried: the
      macOS, Windows and Linux locations. */
  function LegacyPaths(home: string, appData: string): (r: seq<Path>)
    ensures |r| == 3
  {
    [ JoinAll(home, ["Library", "Application Support", "WebLauncher", "custom_sites.json"]),
      JoinAll(appData, ["WebLauncher", "custom_sites.json"]),
      JoinAll(home, [".config", "WebLauncher", "custom_sites.json"]) ]
  }

  /** `os.getenv(name, default)`, given the variable's value if it is set. */
  function GetEnvOr(value: Option<string>, default: string): (r: string)
    ensures value.Some? ==> r == value.value
    ensures value.None? ==> r == default
  {
    match value
    case Some(v) => v
    case None => default
  }

  // ---------------------------------------------------------------------
  // Saving

  /** save_websites: when the data file exists it is first copied to its
      .bak sibling (a failing copy ends the save there), then the file is
      rewritten with one line per record, in list order. The flag says
      whether no exception was raised. A write that fails part-way leaves
      the backup in place and the data file truncated or untouched. */
  function Save(fs: FileSystem, p: Path, ws: seq<Site>, backupFails: bool, fault: WriteFault): (r: (FileSystem, bool))
    ensures r.1 ==> p in r.0 && r.0[p] == EncodeAll(ws)
    ensures r.1 <==> !(p in fs && backupFails) && (fault.NoFault? || (fault.StopsAfter? && fault.k >= |ws|))
    ensures p in fs && backupFails ==> r.0 == fs
    ensures p in fs && !backupFails ==> BackupPath(p) in r.0 && r.0[BackupPath(p)] == fs[p]
    ensures p !in fs ==> (BackupPath(p) in r.0 <==> BackupPath(p) in fs)
                         && (BackupPath(p) in fs ==> r.0[BackupPath(p)] == fs[BackupPath(p)])
    ensures !(p in fs && backupFails) && fault.OpenFails? ==> (p in r.0 <==> p in fs) && (p in fs ==> r.0[p] == fs[p])
    ensures !(p in fs && backupFails) && fault.StopsAfter? && !r.1 ==> p in r.0 && r.0[p] == EncodeAll(ws)[..fault.k]
    ensures forall q :: q != p && q != BackupPath(p) ==> (q in r.0 <==> q in fs) && (q in fs ==> r.0[q] == fs[q])
  {
    if p in fs && backupFails then (fs, false)
    else
      var fs1 := if p in fs then fs[BackupPath(p) := fs[p]] else fs;
      WriteLines(fs1, p, EncodeAll(ws), fault)
  }

  /** Two successful saves in a row leave the second list in the data file
      and the first in the backup. */
  lemma SaveTwice(fs: FileSystem, p: Path, ws1: seq<Site>, ws2: seq<Site>)
    requires Save(fs, p, ws1, false, NoFault).1
    ensures var fs1 := Save(fs, p, ws1, false, NoFault).0;
            var fs2 := Save(fs1, p, ws2, false, NoFault).0;
            fs2[p] == EncodeAll(ws2) && fs2[BackupPath(p)] == EncodeAll(ws1)
  {
  }

  // ---------------------------------------------------------------------
  // Migration

  /** A legacy file the copy can bring over: it exists and copying it does
      not fail. */
  predicate Copyable(fs: FileSystem, q: Path, copyFails: set<Path>) {
    q in fs && q !in copyFails
  }

  /** The first legacy path, in order, that can be copied. */
  function FirstCopyable(legacy: seq<Path>, fs: FileSystem, copyFails: set<Path>): (r: Option<Path>)
    ensures r.None? <==> forall i :: 0 <= i < |legacy| ==> !Copyable(fs, legacy[i], copyFails)
    ensures r.Some? ==> exists i :: 0 <= i < |legacy| && legacy[i] == r.value && Copyable(fs, r.value, copyFails)
                                    && forall j :: 0 <= j < i ==> !Copyable(fs, legacy[j], copyFails)
  {
    if legacy == [] then None
    else if Copyable(fs, legacy[0], copyFails) then Some(legacy[0])
    else
      var r := FirstCopyable(legacy[1..], fs, copyFails);
      if r.Some? then
        var i :| 0 <= i < |legacy[1..]| && legacy[1..][i] == r.value && Copyable(fs, r.value, copyFails)
                 && forall j :: 0 <= j < i ==> !Copyable(fs, legacy[1..][j], copyFails);
        assert forall j :: 0 <= j < i + 1 ==> !Copyable(fs, legacy[j], copyFails) by {
          forall j | 0 < j < i + 1
            ensures !Copyable(fs, legacy[j], copyFails)
          {
            assert legacy[j] == legacy[1..][j - 1];
          }
        }
        assert legacy[i + 1] == r.value;
        r
      else r
  }

  /** migrate_old_data: each legacy path in turn is copied to p when it
      exists and p does not yet; a copy that fails is reported and the next
      path is tried. */
  function Migrate(fs: FileSystem, legacy: seq<Path>, p: Path, copyFails: set<Path>): FileSystem
    decreases |legacy|
  {
    if legacy == [] then fs
    else
      var q := legacy[0];
      var fs1 := if q in fs && p !in fs && q !in copyFails then fs[p := fs[q]] else fs;
      Migrate(fs1, legacy[1..], p, copyFails)
  }

  /** Migration never touches an existing data file, and otherwise copies
      the first legacy file that can be copied, if any. The legacy files
      stay where they are: it is a copy, not a move. */
  lemma {:induction false} MigrateFirstWins(fs: FileSystem, legacy: seq<Path>, p: Path, copyFails: set<Path>)
    ensures p in fs ==> Migrate(fs, legacy, p, copyFails) == fs
    ensures p !in fs && FirstCopyable(legacy, fs, copyFails).None? ==> Migrate(fs, legacy, p, copyFails) == fs
    ensures p !in fs && FirstCopyable(legacy, fs, copyFails).Some? ==>
              Migrate(fs, legacy, p, copyFails) == fs[p := fs[FirstCopyable(legacy, fs, copyFails).value]]
    decreases |legacy|
  {
    if legacy != [] {
      var q := legacy[0];
      if q in fs && p !in fs && q !in copyFails {
        MigrateFirstWins(fs[p := fs[q]], legacy[1..], p, copyFails);
      } else {
        MigrateFirstWins(fs, legacy[1..], p, copyFails);
      }
    }
  }

  lemma MigrateFrame(fs: FileSystem, legacy: seq<Path>, p: Path, copyFails: set<Path>)
    ensures var r := Migrate(fs, legacy, p, copyFails);
            forall q :: q != p ==> (q in r <==> q in fs) && (q in fs ==> r[q] == fs[q])
  {
    MigrateFirstWins(fs, legacy, p, copyFails);
  }
}

=== FILE: text.dfy ===
/** String helpers with the meaning Python gives them: str.strip, str.lower,
    the `in` substring test, str(int) and the ordering used by sorted(). */
module Text {

  /** Python's str.isspace() for a single character. */
  predicate IsSpace(c: char) {
    var n := c as int;
    (9 <= n <= 13) || (28 <= n <= 32) || n == 0x85 || n == 0xA0 || n == 0x1680
    || (0x2000 <= n <= 0x200A) || n == 0x2028 || n == 0x2029 || n == 0x202F
    || n == 0x205F || n == 0x3000
  }

  predicate AllSpace(s: string) {
    forall i :: 0 <= i < |s| ==> IsSpace(s[i])
  }

  /** Index of the first non-space character at or after i (|s| if none). */
  function SkipSpaces(s: string, i: nat): (j: nat)
    requires i <= |s|
    ensures i <= j <= |s|
    ensures forall k :: i <= k < j ==> IsSpace(s[k])
    ensures j < |s| ==> !IsSpace(s[j])
    decreases |s| - i
  {
    if i < |s| && IsSpace(s[i]) then SkipSpaces(s, i + 1) else i
  }

  /** Index just past the last non-space character in s[lo..hi] (lo if none). */
  function SkipSpacesBack(s: string, lo: nat, hi: nat): (j: nat)
    requires lo <= hi <= |s|
    ensures lo <= j <= hi
    ensures forall k :: j <= k < hi ==> IsSpace(s[k])
    ensures j > lo ==> !IsSpace(s[j - 1])
    decreases hi
  {
    if hi > lo && IsSpace(s[hi - 1]) then SkipSpacesBack(s, lo, hi - 1) else hi
  }

  /** Python's str.strip() with no argument: what is left once the
      all-space prefix and the all-space suffix are gone. */
  function Strip(s: string): (r: string)
    ensures r == [] <==> AllSpace(s)
    ensures r != [] ==> !IsSpace(r[0]) && !IsSpace(r[|r| - 1])
    ensures exists i :: OccursAt(s, r, i) && AllSpace(s[..i]) && AllSpace(s[i + |r|..])
  {
    var i := SkipSpaces(s, 0);
    var j := SkipSpacesBack(s, i, |s|);
    var r := s[i..j];
    assert OccursAt(s, r, i);
    assert AllSpace(s[..i]) by {
      forall k | 0 <= k < i
        ensures IsSpace(s[..i][k])
      {
      }
    }
    assert AllSpace(s[i + |r|..]) by {
      forall k | 0 <= k < |s| - j
        ensures IsSpace(s[j..][k])
      {
        assert s[j..][k] == s[j + k];
      }
    }
    assert r == [] ==> AllSpace(s) by {
      if r == [] {
        forall k | 0 <= k < |s|
          ensures IsSpace(s[k])
        {
        }
      }
    }
    r
  }

  /** Stripping an already stripped string changes nothing. */
  lemma StripIdempotent(s: string)
    ensures Strip(Strip(s)) == Strip(s)
  {
    var r := Strip(s);
    if r != [] {
      assert SkipSpaces(r, 0) == 0;
      assert SkipSpacesBack(r, 0, |r|) == |r|;
      assert r[0..|r|] == r;
    }
  }

  /** A string without white space is its own stripped form. */
  lemma StripNoSpace(s: string)
    requires forall k :: 0 <= k < |s| ==> !IsSpace(s[k])
    ensures Strip(s) == s
  {
    if s != [] {
      assert SkipSpaces(s, 0) == 0;
      assert SkipSpacesBack(s, 0, |s|) == |s|;
      assert s[0..|s|] == s;
    }
  }

  /** str.lower() on the ASCII range; other characters are kept. */
  function LowerChar(c: char): char {
    if 'A' <= c <= 'Z' then (c as int + 32) as char else c
  }

  function Lower(s: string): (r: string)
    ensures |r| == |s|
    ensures forall i :: 0 <= i < |s| ==> r[i] == LowerChar(s[i])
  {
    if s == [] then [] else [LowerChar(s[0])] + Lower(s[1..])
  }

  lemma LowerIdempotent(s: string)
    ensures Lower(Lower(s)) == Lower(s)
  {
  }

  predicate IsPrefix(p: string, s: string) {
    |p| <= |s| && s[..|p|] == p
  }

  /** The needle sits in the haystack at offset i. */
  predicate OccursAt(haystack: string, needle: string, i: int) {
    0 <= i <= |haystack| - |needle| && haystack[i..i + |needle|] == needle
  }

  /** Python's `needle in haystack` on two strings. */
  predicate Contains(haystack: string, needle: string)
    decreases |haystack|
  {
    IsPrefix(needle, haystack) || (haystack != [] && Contains(haystack[1..], needle))
  }

  /** The substring test holds exactly when the needle occurs at some offset. */
  lemma {:induction false} ContainsOccurs(haystack: string, needle: string)
    ensures Contains(haystack, needle) <==> exists i :: OccursAt(haystack, needle, i)
    decreases |haystack|
  {
    if IsPrefix(needle, haystack) {
      assert OccursAt(haystack, needle, 0);
    } else if haystack == [] {
    } else {
      var t := haystack[1..];
      ContainsOccurs(t, needle);
      if exists i :: OccursAt(haystack, needle, i) {
        var i :| OccursAt(haystack, needle, i);
        assert i != 0;
        assert t[i - 1..i - 1 + |needle|] == haystack[i..i + |needle|];
        assert OccursAt(t, needle, i - 1);
      }
      if Contains(t, needle) {
        var i :| OccursAt(t, needle, i);
        assert haystack[i + 1..i + 1 + |needle|] == t[i..i + |needle|];
        assert OccursAt(haystack, needle, i + 1);
      }
    }
  }

  predicate IsDigit(c: char) {
    '0' <= c <= '9'
  }

  function DigitChar(d: nat): char
    requires d < 10
  {
    ('0' as int + d) as char
  }

  /** The value of a run of decimal digits. */
  function DecimalValue(s: string): nat
    requires forall i :: 0 <= i < |s| ==> IsDigit(s[i])
  {
    if s == [] then 0
    else
      assert IsDigit(s[|s| - 1]);
      DecimalValue(s[..|s| - 1]) * 10 + (s[|s| - 1] as int - '0' as int)
  }

  /** Python's str(n) for a non-negative int. */
  function DecimalString(n: nat): (r: string)
    ensures r != [] && forall i :: 0 <= i < |r| ==> IsDigit(r[i])
    ensures |r| > 1 ==> r[0] != '0'
    ensures DecimalValue(r) == n
  {
    if n < 10 then [DigitChar(n)]
    else
      var p := DecimalString(n / 10);
      var r := p + [DigitChar(n % 10)];
      assert r[..|r| - 1] == p;
      r
  }

  /** Python's `<` on str: code points compared lexicographically. */
  predicate Below(a: string, b: string)
    decreases |a|
  {
    if a == [] then b != []
    else if b == [] then false
    else if a[0] == b[0] then Below(a[1..], b[1..])
    else a[0] < b[0]
  }

  lemma {:induction false} BelowIrreflexive(a: string)
    ensures !Below(a, a)
    decreases |a|
  {
    if a != [] {
      BelowIrreflexive(a[1..]);
    }
  }

  lemma {:induction false} BelowTransitive(a: string, b: string, c: string)
    requires Below(a, b) && Below(b, c)
    ensures Below(a, c)
    decreases |a|
  {
    if a != [] && a[0] == b[0] && b[0] == c[0] {
      BelowTransitive(a[1..], b[1..], c[1..]);
    }
  }

  lemma {:induction false} BelowTotal(a: string, b: string)
    ensures a == b || Below(a, b) || Below(b, a)
    decreases |a|
  {
    if a != [] && b != [] && a[0] == b[0] {
      BelowTotal(a[1..], b[1..]);
      if a[1..] == b[1..] {
        assert a == [a[0]] + a[1..];
        assert b == [b[0]] + b[1..];
      }
    }
  }

  lemma {:induction false} BelowAsymmetric(a: string, b: string)
    requires Below(a, b)
    ensures !Below(b, a)
    decreases |a|
  {
    if a != [] && a[0] == b[0] {
      BelowAsymmetric(a[1..], b[1..]);
    }
  }
}

=== FILE: url.dfy ===
/** The URL shape test of the store: the regular expression
        ^(https?://)?([A-Za-z0-9-]+\.)+[A-Za-z]{2,}(:\d+)?(/[/\w\.-]*)*$
    compiled with re.IGNORECASE and applied with re.match. It is stated twice:
    once group by group as the pattern reads (MatchesPattern), once as the
    left-to-right scan a matcher ends up doing (IsValidUrl); the two are
    proved to accept the same strings. \w and \d are the ASCII classes and
    $ is the end of the string. */
module UrlShape {
  import opened Text

  predicate IsLetter(c: char) {
    'A' <= c <= 'Z' || 'a' <= c <= 'z'
  }

  /** [A-Za-z0-9-] */
  predicate IsLabelChar(c: char) {
    IsLetter(c) || IsDigit(c) || c == '-'
  }

  /** The characters a host name can contain: labels and dots. */
  predicate IsHostChar(c: char) {
    IsLabelChar(c) || c == '.'
  }

  /** \w */
  predicate IsWordChar(c: char) {
    IsLetter(c) || IsDigit(c) || c == '_'
  }

  /** [/\w\.-] */
  predicate IsPathChar(c: char) {
    c == '/' || IsWordChar(c) || c == '.' || c == '-'
  }

  predicate LabelRange(s: string, lo: int, hi: int) {
    0 <= lo <= hi <= |s| && forall k :: lo <= k < hi ==> IsLabelChar(s[k])
  }

  predicate HostRange(s: string, lo: int, hi: int) {
    0 <= lo <= hi <= |s| && forall k :: lo <= k < hi ==> IsHostChar(s[k])
  }

  predicate LetterRange(s: string, lo: int, hi: int) {
    0 <= lo <= hi <= |s| && forall k :: lo <= k < hi ==> IsLetter(s[k])
  }

  predicate DigitRange(s: string, lo: int, hi: int) {
    0 <= lo <= hi <= |s| && forall k :: lo <= k < hi ==> IsDigit(s[k])
  }

  predicate PathRange(s: string, lo: int, hi: int) {
    0 <= lo <= hi <= |s| && forall k :: lo <= k < hi ==> IsPathChar(s[k])
  }

  // ---------------------------------------------------------------------
  // The pattern, group by group, over the slice s[lo..hi]

  /** (https?://)? under re.IGNORECASE: empty, or http:// or https:// in any case. */
  ghost predicate OptionalScheme(p: string) {
    p == [] || Lower(p) == "http://" || Lower(p) == "https://"
  }

  /** ([A-Za-z0-9-]+\.)+[A-Za-z]{2,}: one or more labels each closed by a
      dot, then a top-level label of two or more letters. */
  ghost predicate DomainAt(s: string, lo: int, hi: int)
    decreases hi - lo
  {
    0 <= lo && hi <= |s|
    && (exists i :: lo < i < hi && s[i] == '.' && LabelRange(s, lo, i)
         && ((hi - (i + 1) >= 2 && LetterRange(s, i + 1, hi)) || DomainAt(s, i + 1, hi)))
  }

  /** (:\d+)? */
  ghost predicate PortAt(s: string, lo: int, hi: int) {
    0 <= lo <= hi <= |s| && (lo == hi || (hi - lo >= 2 && s[lo] == ':' && DigitRange(s, lo + 1, hi)))
  }

  /** (/[/\w\.-]*)* up to the end of s. */
  ghost predicate PathGroupsFrom(s: string, lo: int)
    decreases |s| - lo
  {
    0 <= lo <= |s|
    && (lo == |s|
        || (s[lo] == '/' && exists k :: lo < k <= |s| && PathRange(s, lo + 1, k) && PathGroupsFrom(s, k)))
  }

  /** re.match of the whole pattern, anchored at both ends. */
  ghost predicate MatchesPattern(s: string) {
    exists a, b, c :: 0 <= a <= b <= c <= |s| && OptionalScheme(s[..a])
      && DomainAt(s, a, b) && PortAt(s, b, c) && PathGroupsFrom(s, c)
  }

  // ---------------------------------------------------------------------
  // The deterministic scan

  /** s[i..] starts with w[i..], ignoring ASCII case in s. */
  predicate FoldsFrom(s: string, w: string, i: nat)
    decreases |w| - i
  {
    i >= |w| || (i < |s| && LowerChar(s[i]) == w[i] && FoldsFrom(s, w, i + 1))
  }

  lemma {:induction false} FoldsFromPointwise(s: string, w: string, i: nat)
    requires i <= |w|
    ensures FoldsFrom(s, w, i)
        <==> (i == |w| || |w| <= |s|) && forall k :: i <= k < |w| ==> LowerChar(s[k]) == w[k]
    decreases |w| - i
  {
    if i < |w| {
      FoldsFromPointwise(s, w, i + 1);
    }
  }

  /** The char-by-char test is the folded-prefix comparison. */
  lemma FoldsIffLowerPrefix(s: string, w: string)
    ensures FoldsFrom(s, w, 0) <==> |w| <= |s| && Lower(s[..|w|]) == w
  {
    FoldsFromPointwise(s, w, 0);
    if |w| <= |s| && Lower(s[..|w|]) == w {
      forall k | 0 <= k < |w|
        ensures LowerChar(s[k]) == w[k]
      {
        assert Lower(s[..|w|])[k] == LowerChar(s[k]);
      }
    }
  }

  /** Length of the scheme the pattern consumes: https:// wins over http://. */
  function SchemeLength(s: string): (a: nat)
    ensures a == 0 || a == 7 || a == 8
    ensures a <= |s|
    ensures a == 8 <==> |s| >= 8 && Lower(s[..8]) == "https://"
    ensures a == 7 <==> !(|s| >= 8 && Lower(s[..8]) == "https://") && |s| >= 7 && Lower(s[..7]) == "http://"
  {
    FoldsIffLowerPrefix(s, "https://");
    FoldsIffLowerPrefix(s, "http://");
    if FoldsFrom(s, "https://", 0) then 8
    else if FoldsFrom(s, "http://", 0) then 7
    else 0
  }

  /** End of the run of host characters starting at i. */
  function HostEnd(s: string, i: nat): (j: nat)
    requires i <= |s|
    ensures i <= j <= |s| && HostRange(s, i, j)
    ensures j < |s| ==> !IsHostChar(s[j])
    decreases |s| - i
  {
    if i < |s| && IsHostChar(s[i]) then HostEnd(s, i + 1) else i
  }

  /** End of the run of label characters starting at i. */
  function LabelEnd(s: string, i: nat): (j: nat)
    requires i <= |s|
    ensures i <= j <= |s| && LabelRange(s, i, j)
    ensures j < |s| ==> !IsLabelChar(s[j])
    decreases |s| - i
  {
    if i < |s| && IsLabelChar(s[i]) then LabelEnd(s, i + 1) else i
  }

  /** End of the run of letters starting at i. */
  function LettersEnd(s: string, i: nat): (j: nat)
    requires i <= |s|
    ensures i <= j <= |s| && LetterRange(s, i, j)
    ensures j < |s| ==> !IsLetter(s[j])
    decreases |s| - i
  {
    if i < |s| && IsLetter(s[i]) then LettersEnd(s, i + 1) else i
  }

  /** End of the run of digits starting at i. */
  function DigitsEnd(s: string, i: nat): (j: nat)
    requires i <= |s|
    ensures i <= j <= |s| && DigitRange(s, i, j)
    ensures j < |s| ==> !IsDigit(s[j])
    decreases |s| - i
  {
    if i < |s| && IsDigit(s[i]) then DigitsEnd(s, i + 1) else i
  }

  /** End of the run of path characters starting at i. */
  function PathEnd(s: string, i: nat): (j: nat)
    requires i <= |s|
    ensures i <= j <= |s| && PathRange(s, i, j)
    ensures j < |s| ==> !IsPathChar(s[j])
    decreases |s| - i
  {
    if i < |s| && IsPathChar(s[i]) then PathEnd(s, i + 1) else i
  }

  /** First dot in s[lo..hi], or hi when there is none. */
  function NextDot(s: string, lo: nat, hi: nat): (i: nat)
    requires lo <= hi <= |s|
    ensures lo <= i <= hi
    ensures forall k :: lo <= k < i ==> s[k] != '.'
    ensures i < hi ==> s[i] == '.'
    decreases hi - lo
  {
    if lo < hi && s[lo] != '.' then NextDot(s, lo + 1, hi) else lo
  }

  /** The host s[lo..hi] splits at its dots into non-empty labels, the last
      being two or more letters. */
  predicate DomainOk(s: string, lo: nat, hi: nat)
    requires lo <= hi <= |s|
    decreases hi - lo
  {
    var i := NextDot(s, lo, hi);
    lo < i < hi && LabelEnd(s, lo) >= i
    && ((hi - (i + 1) >= 2 && LettersEnd(s, i + 1) >= hi) || DomainOk(s, i + 1, hi))
  }

  /** An empty path, or a slash followed by path characters to the end. */
  predicate PathOk(s: string, c: nat)
    requires c <= |s|
  {
    c == |s| || (s[c] == '/' && PathEnd(s, c + 1) == |s|)
  }

  /** What may follow the host: an optional :port, then the path. */
  predicate TailOk(s: string, b: nat)
    requires b <= |s|
  {
    if b < |s| && s[b] == ':' then
      var c := DigitsEnd(s, b + 1);
      c > b + 1 && PathOk(s, c)
    else PathOk(s, b)
  }

  /** is_valid_url. */
  predicate IsValidUrl(s: string) {
    var a := SchemeLength(s);
    var b := HostEnd(s, a);
    DomainOk(s, a, b) && TailOk(s, b)
  }

  // ---------------------------------------------------------------------
  // The scan accepts exactly what the pattern matches

  lemma {:induction false} DomainOkMatches(s: string, lo: nat, hi: nat)
    requires lo <= hi <= |s| && DomainOk(s, lo, hi)
    ensures DomainAt(s, lo, hi)
    decreases hi - lo
  {
    var i := NextDot(s, lo, hi);
    if !(hi - (i + 1) >= 2 && LetterRange(s, i + 1, hi)) {
      DomainOkMatches(s, i + 1, hi);
    }
  }

  lemma {:induction false} DomainMatchesOk(s: string, lo: nat, hi: nat)
    requires lo <= hi <= |s| && DomainAt(s, lo, hi)
    ensures DomainOk(s, lo, hi)
    ensures HostRange(s, lo, hi)
    decreases hi - lo, 1
  {
    var i :| lo < i < hi && s[i] == '.' && LabelRange(s, lo, i)
      && ((hi - (i + 1) >= 2 && LetterRange(s, i + 1, hi)) || DomainAt(s, i + 1, hi));
    DomainMatchesAt(s, lo, i, hi);
  }

  /** DomainMatchesOk once the first dot is known. */
  lemma {:induction false} DomainMatchesAt(s: string, lo: nat, i: nat, hi: nat)
    requires lo < i < hi <= |s| && s[i] == '.' && LabelRange(s, lo, i)
    requires (hi - (i + 1) >= 2 && LetterRange(s, i + 1, hi)) || DomainAt(s, i + 1, hi)
    ensures DomainOk(s, lo, hi)
    ensures HostRange(s, lo, hi)
    decreases hi - lo, 0
  {
    if hi - (i + 1) >= 2 && LetterRange(s, i + 1, hi) {
      DomainOkLast(s, lo, i, hi);
    } else {
      DomainMatchesOk(s, i + 1, hi);
      DomainOkMore(s, lo, i, hi);
    }
  }

  /** A label, a dot and a final run of two or more letters. */
  lemma DomainOkLast(s: string, lo: nat, i: nat, hi: nat)
    requires lo < i < hi <= |s| && LabelRange(s, lo, i) && s[i] == '.'
    requires hi - (i + 1) >= 2 && LetterRange(s, i + 1, hi)
    ensures DomainOk(s, lo, hi) && HostRange(s, lo, hi)
  {
    NextDotAt(s, lo, i, hi);
    LabelEndCovers(s, lo, i);
    LettersEndCovers(s, i + 1, hi);
    DomainOkStep(s, lo, i, hi);
    HostRangeJoin(s, lo, i, hi);
  }

  /** A label, a dot and a further well-formed domain. */
  lemma DomainOkMore(s: string, lo: nat, i: nat, hi: nat)
    requires lo < i < hi <= |s| && LabelRange(s, lo, i) && s[i] == '.'
    requires DomainOk(s, i + 1, hi) && HostRange(s, i + 1, hi)
    ensures DomainOk(s, lo, hi) && HostRange(s, lo, hi)
  {
    NextDotAt(s, lo, i, hi);
    LabelEndCovers(s, lo, i);
    DomainOkStep(s, lo, i, hi);
    HostRangeJoin(s, lo, i, hi);
  }

  /** The first dot after a label is the one that ends it. */
  lemma {:induction false} NextDotAt(s: string, lo: nat, i: nat, hi: nat)
    requires lo <= i < hi <= |s| && LabelRange(s, lo, i) && s[i] == '.'
    ensures NextDot(s, lo, hi) == i
    decreases i - lo
  {
    if lo < i {
      NextDotAt(s, lo + 1, i, hi);
    }
  }

  /** One unfolding of DomainOk. */
  lemma DomainOkStep(s: string, lo: nat, i: nat, hi: nat)
    requires lo < i < hi <= |s| && NextDot(s, lo, hi) == i && LabelEnd(s, lo) >= i
    requires (hi - (i + 1) >= 2 && LettersEnd(s, i + 1) >= hi) || DomainOk(s, i + 1, hi)
    ensures DomainOk(s, lo, hi)
  {
  }

  lemma {:induction false} LabelEndCovers(s: string, lo: nat, hi: nat)
    requires LabelRange(s, lo, hi)
    ensures LabelEnd(s, lo) >= hi
    decreases hi - lo
  {
    if lo < hi {
      LabelEndCovers(s, lo + 1, hi);
    }
  }

  lemma {:induction false} LettersEndCovers(s: string, lo: nat, hi: nat)
    requires LetterRange(s, lo, hi)
    ensures LettersEnd(s, lo) >= hi
    decreases hi - lo
  {
    if lo < hi {
      LettersEndCovers(s, lo + 1, hi);
    }
  }

  /** A label, a dot, and host characters or letters make a host range. */
  lemma HostRangeJoin(s: string, lo: nat, i: nat, hi: nat)
    requires lo <= i < hi <= |s| && LabelRange(s, lo, i) && s[i] == '.'
    requires HostRange(s, i + 1, hi) || LetterRange(s, i + 1, hi)
    ensures HostRange(s, lo, hi)
  {
  }

  lemma {:induction false} PathGroupsArePathOk(s: string, c: nat)
    requires c <= |s| && PathGroupsFrom(s, c)
    ensures PathOk(s, c)
    decreases |s| - c
  {
    if c < |s| {
      var k :| c < k <= |s| && PathRange(s, c + 1, k) && PathGroupsFrom(s, k);
      PathGroupsArePathOk(s, k);
    }
  }

  /** (/[/\w\.-]*)* accepts the same strings as the single group /[/\w\.-]*
      or nothing. */
  lemma PathGroupsIsPathOk(s: string, c: nat)
    requires c <= |s|
    ensures PathGroupsFrom(s, c) <==> PathOk(s, c)
  {
    if PathGroupsFrom(s, c) {
      PathGroupsArePathOk(s, c);
    }
    if PathOk(s, c) && c < |s| {
      assert PathRange(s, c + 1, |s|) && PathGroupsFrom(s, |s|);
    }
  }

  lemma LowerCharFacts(c: char)
    ensures LowerChar(c) == ':' ==> c == ':'
    ensures LowerChar(c) == '.' ==> c == '.'
    ensures 'a' <= LowerChar(c) <= 'z' ==> IsLetter(c)
  {
  }

  /** A folded scheme prefix holds letters up to its colon at index n. */
  lemma SchemePrefixLetters(s: string, w: string, n: nat)
    requires |w| <= |s| && Lower(s[..|w|]) == w
    requires n < |w| && w[n] == ':' && forall j :: 0 <= j < n ==> 'a' <= w[j] <= 'z'
    ensures s[n] == ':'
    ensures forall j :: 0 <= j < n ==> IsLetter(s[j])
  {
    assert LowerChar(s[n]) == Lower(s[..|w|])[n];
    LowerCharFacts(s[n]);
    forall j | 0 <= j < n
      ensures IsLetter(s[j])
    {
      assert LowerChar(s[j]) == Lower(s[..|w|])[j];
      LowerCharFacts(s[j]);
    }
  }

  /** A host cannot begin with letters followed by a colon. */
  lemma NoDomainBeforeColon(s: string, n: nat, b: nat)
    requires b <= |s|
    requires n < |s| && s[n] == ':' && forall j :: 0 <= j < n ==> IsLetter(s[j])
    ensures !DomainAt(s, 0, b)
  {
  }

  lemma SchemePrefixBlocksDomain(s: string, b: nat)
    requires b <= |s|
    ensures |s| >= 7 && Lower(s[..7]) == "http://" ==> !DomainAt(s, 0, b)
    ensures |s| >= 8 && Lower(s[..8]) == "https://" ==> !DomainAt(s, 0, b)
  {
    var http := "http://";
    var https := "https://";
    assert http[4] == ':' && http[0] == 'h' && http[1] == 't' && http[2] == 't' && http[3] == 'p';
    assert https[5] == ':' && https[4] == 's';
    if |s| >= 7 && Lower(s[..7]) == http {
      SchemePrefixLetters(s, http, 4);
      NoDomainBeforeColon(s, 4, b);
    }
    if |s| >= 8 && Lower(s[..8]) == https {
      SchemePrefixLetters(s, https, 5);
      NoDomainBeforeColon(s, 5, b);
    }
  }

  /** A string the pattern matches with no scheme group cannot start with a scheme. */
  lemma NoSchemeGroupMeansNoScheme(s: string, b: nat)
    requires b <= |s| && DomainAt(s, 0, b)
    ensures SchemeLength(s) == 0
  {
    SchemePrefixBlocksDomain(s, b);
  }

  lemma HttpIsNotHttps(s: string)
    requires |s| >= 7 && Lower(s[..7]) == "http://"
    ensures !(|s| >= 8 && Lower(s[..8]) == "https://")
  {
    var http := "http://";
    var https := "https://";
    assert http[4] == ':' && https[4] == 's';
    assert Lower(s[..7])[4] == LowerChar(s[4]);
    if |s| >= 8 {
      assert Lower(s[..8])[4] == LowerChar(s[4]);
    }
  }

  /** The scheme group the pattern can take is the one the scan takes. */
  lemma SchemeDetermined(s: string, a: nat, b: nat)
    requires a <= b <= |s| && OptionalScheme(s[..a]) && DomainAt(s, a, b)
    ensures SchemeLength(s) == a
  {
    if a == 0 {
      NoSchemeGroupMeansNoScheme(s, b);
    } else if Lower(s[..a]) == "http://" {
      assert a == 7;
      HttpIsNotHttps(s);
    } else {
      assert a == 8;
    }
  }

  lemma TailMatches(s: string, b: nat, c: nat)
    requires b <= c <= |s| && PortAt(s, b, c) && PathGroupsFrom(s, c)
    ensures TailOk(s, b)
    ensures b < |s| ==> s[b] == ':' || s[b] == '/'
  {
    PathGroupsIsPathOk(s, c);
    if b < c {
      assert s[b] == ':';
      var e := DigitsEnd(s, b + 1);
      assert e == c;
    }
  }

  lemma ValidUrlHasMatch(s: string)
    requires IsValidUrl(s)
    ensures MatchesPattern(s)
  {
    var a := SchemeLength(s);
    var b := HostEnd(s, a);
    DomainOkMatches(s, a, b);
    var c := if b < |s| && s[b] == ':' then DigitsEnd(s, b + 1) else b;
    PathGroupsIsPathOk(s, c);
    assert OptionalScheme(s[..a]);
    assert PortAt(s, b, c);
    assert DomainAt(s, a, b) && PortAt(s, b, c) && PathGroupsFrom(s, c);
  }

  lemma MatchIsValidUrl(s: string)
    requires MatchesPattern(s)
    ensures IsValidUrl(s)
  {
    var a', b', c' :| 0 <= a' <= b' <= c' <= |s| && OptionalScheme(s[..a'])
      && DomainAt(s, a', b') && PortAt(s, b', c') && PathGroupsFrom(s, c');
    SchemeDetermined(s, a', b');
    DomainMatchesOk(s, a', b');
    TailMatches(s, b', c');
    HostEndAt(s, a', b');
    ValidUrlFromParts(s, a', b');
  }

  lemma HostEndAt(s: string, a: nat, b: nat)
    requires a <= b <= |s| && HostRange(s, a, b)
    requires b < |s| ==> s[b] == ':' || s[b] == '/'
    ensures HostEnd(s, a) == b
  {
  }

  /** IsValidUrl once its scheme length and host end are known. */
  lemma ValidUrlFromParts(s: string, a: nat, b: nat)
    requires SchemeLength(s) == a && a <= |s| && HostEnd(s, a) == b
    requires DomainOk(s, a, b) && TailOk(s, b)
    ensures IsValidUrl(s)
  {
  }

  /** is_valid_url accepts exactly the strings the regular expression matches. */
  lemma ValidUrlMatchesPattern(s: string)
    ensures IsValidUrl(s) <==> MatchesPattern(s)
  {
    if IsValidUrl(s) {
      ValidUrlHasMatch(s);
    }
    if MatchesPattern(s) {
      MatchIsValidUrl(s);
    }
  }

  // ---------------------------------------------------------------------
  // Consequences

  /** Every character of an accepted URL is a path character or a colon. */
  lemma ValidUrlChars(s: string)
    requires IsValidUrl(s)
    ensures forall k :: 0 <= k < |s| ==> IsPathChar(s[k]) || s[k] == ':'
  {
    var a := SchemeLength(s);
    var b := HostEnd(s, a);
    forall k | 0 <= k < |s|
      ensures IsPathChar(s[k]) || s[k] == ':'
    {
      if k < a {
        SchemeChars(s, k);
      } else if k >= b {
        TailChars(s, b, k);
      }
    }
  }

  /** The scheme consists of letters, a colon and slashes. */
  lemma SchemeChars(s: string, k: nat)
    requires k < SchemeLength(s)
    ensures IsPathChar(s[k]) || s[k] == ':'
  {
    var a := SchemeLength(s);
    var w := if a == 8 then "https://" else "http://";
    assert Lower(s[..a]) == w;
    assert LowerChar(s[k]) == Lower(s[..a])[k] == w[k];
    assert w[k] in "https:/";
  }

  /** After the host come a colon, digits and path characters. */
  lemma TailChars(s: string, b: nat, k: nat)
    requires b <= k < |s| && TailOk(s, b)
    ensures IsPathChar(s[k]) || s[k] == ':'
  {
    if s[b] == ':' && k > b {
      var c := DigitsEnd(s, b + 1);
      if k < c {
        assert IsDigit(s[k]);
      }
    }
  }

  /** Query strings, fragments and spaces are never accepted. */
  lemma RejectsQueryFragmentSpace(s: string)
    ensures '?' in s || '#' in s || ' ' in s ==> !IsValidUrl(s)
  {
    if IsValidUrl(s) {
      ValidUrlChars(s);
    }
  }

  /** A host without a dot is rejected, whatever path follows it: the
      labels of the pattern end in dots, and the run of host characters
      after the scheme is all the labels can use. */
  lemma RejectsDotlessHost(s: string)
    requires forall k :: SchemeLength(s) <= k < HostEnd(s, SchemeLength(s)) ==> s[k] != '.'
    ensures !IsValidUrl(s)
  {
    var a := SchemeLength(s);
    var b := HostEnd(s, a);
    assert NextDot(s, a, b) == b;
  }

  /** IsValidUrl rejects once its scheme length and host end are known and
      the host or the tail fails. */
  lemma InvalidUrlFromParts(s: string, a: nat, b: nat)
    requires SchemeLength(s) == a && a <= |s| && HostEnd(s, a) == b
    requires !DomainOk(s, a, b) || !TailOk(s, b)
    ensures !IsValidUrl(s)
  {
  }

  /** Behind a literal https:// prefix, a run of letters ending in a colon
      is read as a dotless host, so the string is rejected. */
  lemma RejectsSchemeInHost(s: string, n: nat)
    requires |s| >= 8 && s[..8] == "https://"
    requires 8 < n < |s| && s[n] == ':'
    requires forall k :: 8 <= k < n ==> IsLetter(s[k])
    ensures !IsValidUrl(s)
  {
    var https := "https://";
    forall k | 0 <= k < 8
      ensures Lower(s[..8])[k] == https[k]
    {
      assert s[..8][k] == https[k];
    }
    assert Lower(s[..8]) == https;
    assert SchemeLength(s) == 8;
    HostEndAt(s, 8, n);
    assert NextDot(s, 8, n) == n;
    InvalidUrlFromParts(s, 8, n);
  }
}

=== FILE: url_examples.dfy ===
/** Concrete strings and the URL shape test's verdict on each: typical
    accepted and rejected inputs. Each evaluation is split into the
    scheme length, the host end and the two checks on them. */
module UrlExamples {
  import opened UrlShape

  // "github.com" after the add operation prefixes the scheme
  lemma GithubScheme() ensures SchemeLength("https://github.com") == 8 {}
  lemma GithubHost() ensures HostEnd("https://github.com", 8) == 18 {}
  lemma GithubDomain() ensures DomainOk("https://github.com", 8, 18) {
    DomainOkLast("https://github.com", 8, 14, 18);
  }
  lemma GithubTail() ensures TailOk("https://github.com", 18) {}

  lemma AcceptsGithub()
    ensures IsValidUrl("https://github.com")
  {
    GithubScheme();
    GithubHost();
    GithubDomain();
    GithubTail();
    ValidUrlFromParts("https://github.com", 8, 18);
  }

  // a multi-label host with a hyphenated path
  lemma SubScheme() ensures SchemeLength("https://a.b.cd/x-y") == 8 {}
  lemma SubHost() ensures HostEnd("https://a.b.cd/x-y", 8) == 14 {}
  lemma SubDomain() ensures DomainOk("https://a.b.cd/x-y", 8, 14) {}
  lemma SubTail() ensures TailOk("https://a.b.cd/x-y", 14) {}

  lemma AcceptsMultiLabelHostWithPath()
    ensures IsValidUrl("https://a.b.cd/x-y")
  {
    SubScheme();
    SubHost();
    SubDomain();
    SubTail();
    ValidUrlFromParts("https://a.b.cd/x-y", 8, 14);
  }

  // re.IGNORECASE lets an upper-case scheme through, and a port is allowed
  lemma UpperScheme() ensures SchemeLength("HTTP://A.BC:80/a_b") == 7 {}
  lemma UpperHost() ensures HostEnd("HTTP://A.BC:80/a_b", 7) == 11 {}
  lemma UpperDomain() ensures DomainOk("HTTP://A.BC:80/a_b", 7, 11) {}
  lemma UpperTail() ensures TailOk("HTTP://A.BC:80/a_b", 11) {}

  lemma AcceptsUpperCaseSchemeAndPort()
    ensures IsValidUrl("HTTP://A.BC:80/a_b")
  {
    UpperScheme();
    UpperHost();
    UpperDomain();
    UpperTail();
    ValidUrlFromParts("HTTP://A.BC:80/a_b", 7, 11);
  }

  // no dot, so no host
  lemma PlainScheme() ensures SchemeLength("notaurl") == 0 {}
  lemma PlainHost() ensures HostEnd("notaurl", 0) == 7 {}
  lemma PlainDomain() ensures !DomainOk("notaurl", 0, 7) {}

  lemma RejectsPlainWord()
    ensures !IsValidUrl("notaurl")
  {
    PlainScheme();
    PlainHost();
    PlainDomain();
    InvalidUrlFromParts("notaurl", 0, 7);
  }

  // a scheme with nothing after it
  lemma BareScheme() ensures SchemeLength("http://") == 7 {}
  lemma BareHost() ensures HostEnd("http://", 7) == 7 {}
  lemma BareDomain() ensures !DomainOk("http://", 7, 7) {}

  lemma RejectsBareScheme()
    ensures !IsValidUrl("http://")
  {
    BareScheme();
    BareHost();
    BareDomain();
    InvalidUrlFromParts("http://", 7, 7);
  }

  // "ftp://x" after the add operation prefixes https://
  lemma FtpScheme() ensures SchemeLength("https://ftp://x") == 8 {}
  lemma FtpHost() ensures HostEnd("https://ftp://x", 8) == 11 {}
  lemma FtpDomain() ensures !DomainOk("https://ftp://x", 8, 11) {}

  lemma RejectsPrefixedFtp()
    ensures !IsValidUrl("https://ftp://x")
  {
    FtpScheme();
    FtpHost();
    FtpDomain();
    InvalidUrlFromParts("https://ftp://x", 8, 11);
  }

  // a dotless host followed by a dotted path
  lemma LocalScheme() ensures SchemeLength("https://lan/a.html") == 8 {}
  lemma LocalHost() ensures HostEnd("https://lan/a.html", 8) == 11 {}

  lemma RejectsDotlessHostWithPath()
    ensures !IsValidUrl("https://lan/a.html")
  {
    var s := "https://lan/a.html";
    LocalScheme();
    LocalHost();
    assert forall k :: 8 <= k < 11 ==> s[k] != '.';
    RejectsDotlessHost(s);
  }
}

=== FILE: wrappers.dfy ===
/** Failure-carrying results used for the exceptions of the store. */
module Wrappers {

  datatype Option<+T> = None | Some(value: T)

  datatype Result<+R, +E> = Success(value: R) | Failure(error: E) {
    predicate IsFailure() {
      Failure?
    }
  }
}
